=== FILE: README.md ===
# 3d-nyc search, clustering and camera tours in Dafny

3d-nyc is a map of geotagged posts. A text search asks the backend for the
posts nearest to the query embedding. The client does four things with the
answer:

- It keeps the results while their score stays at or above 0.4.
- It groups the kept posts greedily into clusters: each post joins the nearest
  cluster less than 1000 m away, or starts a new one.
- It outlines every cluster of three or more posts with a convex-hull polygon.
- It moves the camera to the best post.

A "Fly Through" button then tours the first five results, one camera leg at a
time. A separate form validates and submits new posts.

The project models this pipeline with immutable datatypes and pure functions:

| file | module | models |
|---|---|---|
| `options.dfy` | `Options` | `Option`, plus filtering out the absent entries of a list while keeping order |
| `docs.dfy` | `Docs` | the post document; the distance function as a parameter |
| `cluster.dfy` | `PostCluster` | `MapPostCluster`: seed, append, mean center, polygon gating and axis swap, release |
| `cluster_group.dfy` | `PostClusterGroup` | `MapPostClusterGroup`: the nearest-under-radius scan, `addPost`, polygons, release |
| `camera.dfy` | `Camera` | `interpolate` as a state machine driven by timestamped ticks |
| `fly_through.dfy` | `FlyThrough` | the Fly Through button and the `createFlyThroughWaypoint` chain of legs |
| `posts.dfy` | `Posts` | `getPostsInternal` and the `{posts, scores}` shape of `searchPosts` |
| `search.dfy` | `MapSearch` | `handleSubmit`: the score prefix, clustering, polygons and camera target |
| `post_form.dfy` | `PostForm` | `handleSubmitPost`, `setTag`, and the Send button guard |

Some things the code calls are not visible to the model. They become parameters:

- the geodesic distance (`Distance`);
- the convex hull (`Hull`, which may answer nothing);
- URL validity (`validUrl`);
- the id returned by the photo upload.

Time is an integer number of milliseconds, carried by explicit events:
`TimerFired(now)` for the timeout before a leg, and `Tick(now)` for the 10 ms
interval. Coordinates, scores and camera states are `real`.

As the code is written, a cluster's center is set from its seed post and never
moved. `updateCenter` exists but nothing calls it. Every distance is therefore
measured to a cluster's first post (`PostCluster.DistanceToSeed`).
`UpdateCenter` is modelled on its own.

## Model

| member | source | states |
|---|---|---|
| PostCluster.New | src/MapPostCluster.ts:16-19 | a new cluster holds exactly its seed, is centered on the seed's position, and has no polygon |
| PostCluster.DistanceToSeed | src/MapPostCluster.ts:29-31 | distance is measured from the stored center, which for an unmodified cluster is the seed post |
| PostCluster.AddPost | src/MapPostCluster.ts:33-35 | the post is appended at the end; the members grow by exactly that post; center and polygon are unchanged, so `posts[0]` stays the seed |
| PostCluster.UpdateCenter | src/MapPostCluster.ts:37-45 | center latitude times the member count is the sum of member latitudes, and likewise for longitude; a one-post cluster is centered on that post |
| PostCluster.CenterIgnoresOrder | src/MapPostCluster.ts:37-45 | two clusters with the same members, in any order, get the same mean center |
| PostCluster.SumOfPermutation | src/MapPostCluster.ts:41-42 | the reduced sum of a coordinate does not depend on member order |
| PostCluster.CenterWithinMembers | src/MapPostCluster.ts:37-45 | the mean center lies inside every box that contains all members |
| PostCluster.HullInput | src/MapPostCluster.ts:53-56 | one hull point per member, in member order, as `[lng, lat]` |
| PostCluster.ToRing | src/MapPostCluster.ts:73 | each hull vertex `[x, y]` becomes `{lat: y, lng: x, altitude: 0.5}`, keeping ring length and order |
| PostCluster.AxisSwapRoundTrip | src/MapPostCluster.ts:53-73 | the swap into hull input and back restores every member's lat and lng |
| PostCluster.Boundary | src/MapPostCluster.ts:51-77 | fewer than 3 members gives nothing; otherwise there is a polygon exactly when the hull answers, and it is the mapped hull ring |
| PostCluster.GeneratePolygon | src/MapPostCluster.ts:47-78 | the old polygon is discarded: the new one is present exactly when there are at least 3 members and the hull answers, and it is then the hull ring mapped to `{lat: y, lng: x, altitude: 0.5}`; members and center stay |
| PostCluster.MarkerRemovals | src/MapPostCluster.ts:85-87 | one marker removal per member, in member order |
| PostCluster.RemoveMapResources | src/MapPostCluster.ts:80-88 | a present polygon is removed first, then every member's marker in order; afterwards no polygon is held |
| PostCluster.SecondRemovalRemovesNoPolygon | src/MapPostCluster.ts:80-88 | releasing twice changes nothing more and removes no polygon the second time |
| PostClusterGroup.Empty | src/MapPostClusterGroup.ts:7-9 | a new group has no clusters and no members |
| PostClusterGroup.ScanFrom | src/MapPostClusterGroup.ts:17-24 | the loop keeps its invariant: the chosen index is the nearest under the radius so far, or no distance so far is under it |
| PostClusterGroup.Choose | src/MapPostClusterGroup.ts:17-24 | nothing is chosen exactly when no distance is under 1000; otherwise the choice is under 1000, no qualifying distance is smaller, and every earlier qualifying one is strictly larger |
| PostClusterGroup.NearestIsUnique | src/MapPostClusterGroup.ts:17-24 | the nearest-with-earliest-tie rule picks a single index |
| PostClusterGroup.Target | src/MapPostClusterGroup.ts:17-24 | no target exactly when every cluster's distance is at least 1000; otherwise the target is the nearest qualifying cluster |
| PostClusterGroup.AddPost | src/MapPostClusterGroup.ts:15-30 | membership grows by exactly the post; with a target only that cluster changes, by appending the post; without one a single-post cluster is appended at the end; the count grows by at most one |
| PostClusterGroup.AddPostKeepsShape | src/MapPostClusterGroup.ts:25-29 | adding a post keeps every cluster non-empty with its seed first and its center on the seed, and creates no polygon |
| PostClusterGroup.AddPostChoice | src/MapPostClusterGroup.ts:20-29 | joining an existing cluster needs a distance strictly under 1000, the smallest, earliest on ties; a new cluster appears exactly when none is under 1000 |
| PostClusterGroup.FarPostStartsCluster | src/MapPostClusterGroup.ts:25-29 | a post at least 1000 from every cluster is appended as a new cluster and the others keep their order |
| PostClusterGroup.ClusterAll | src/Map.tsx:78-86 | adding the kept posts in order gives a group whose clusters are non-empty and seed-centered, whose members are exactly the posts, and with no more clusters than posts |
| PostClusterGroup.ClusterAllInOrder | src/Map.tsx:80-86 | each cluster's posts appear in the kept list in the same relative order, and the clusters are listed in the order their seeds appear in that list |
| PostClusterGroup.ClusterAllFirst | src/Map.tsx:95-96 | the first post of the first cluster is the first post added |
| PostClusterGroup.PartitionComplete | src/MapPostClusterGroup.ts:15-30 | a post is in some cluster exactly when it was added |
| PostClusterGroup.TwoPostExample | src/MapPostClusterGroup.ts:15-30 | a second post within 1000 of the first joins its cluster |
| PostClusterGroup.ClusterAllFar | src/MapPostClusterGroup.ts:25-29 | a post far from every cluster built so far founds a new last cluster and leaves the earlier clusters as they were |
| PostClusterGroup.NearPostJoins | src/MapPostClusterGroup.ts:20-26 | with one cluster, a post strictly within 1000 of it is appended to it |
| PostClusterGroup.ClusterAllOne | src/MapPostClusterGroup.ts:25-29 | the first post always founds the first cluster |
| PostClusterGroup.GeneratePolygons | src/MapPostClusterGroup.ts:32-41 | each cluster regenerates its polygon; the result lists the present polygons in cluster order, at most one per cluster |
| PostClusterGroup.PolygonsNeedThreeMembers | src/MapPostClusterGroup.ts:32-41 | with no cluster of 3 or more posts, no polygon is produced |
| PostClusterGroup.RemoveMapResources | src/MapPostClusterGroup.ts:43-47 | every cluster is released: it keeps its members and center and holds no polygon afterwards |
| PostClusterGroup.ReleaseSplits | src/MapPostClusterGroup.ts:43-47 | the removal requests of a group are those of its front clusters followed by those of its back clusters |
| PostClusterGroup.ReleaseInOrder | src/MapPostClusterGroup.ts:43-47 | each cluster's requests sit between those of the clusters before it and after it, and every polygon held is removed |
| PostClusterGroup.ReleaseCount | src/MapPostClusterGroup.ts:43-47 | there is one removal request per member plus one per cluster holding a polygon, and no other |
| PostClusterGroup.ReleaseCoversMembers | src/MapPostClusterGroup.ts:43-47 | every member of every cluster gets a marker removal |
| Camera.LerpBetween | src/Map.tsx:172-176 | for t in [0, 1] the linear interpolation lies between its endpoints |
| Camera.Blend | src/Map.tsx:171-177 | t = 0 gives start, t = 1 gives end, t in [0, 1] keeps lat, lng and range between the endpoints |
| Camera.Begin | src/Map.tsx:160-161 | the window starts now and lasts the duration; endpoints and callback are kept; the interval is running |
| Camera.FractionInUnitInterval | src/Map.tsx:171 | inside the window t lies in [0, 1], is 0 at the start and 1 at the end time |
| Camera.Tick | src/Map.tsx:162-179 | a cleared interval does nothing; past the end it stops and emits exactly `end` then the callback if any; otherwise it emits the interpolated state |
| Camera.Run | src/Map.tsx:162-179 | a run of ticks changes nothing about the interpolation but whether it is still running |
| Camera.StoppedRunIsSilent | src/Map.tsx:165 | once cleared, no tick reports anything |
| Camera.RunStopsIffPassesEnd | src/Map.tsx:164-165 | a run stops exactly when one of its ticks is past the end time |
| Camera.RunEndsWithSnap | src/Map.tsx:164-169 | a stopped run ends with the exact end state and the callback, with no update after them |
| Camera.RunCallsBackOnce | src/Map.tsx:167-169 | the callback runs once if given and the run stopped, never otherwise |
| Camera.TickBeforeEndStaysBetween | src/Map.tsx:170-177 | a tick inside the window reports a state between start and end on each axis |
| FlyThrough.Waypoints | src/Map.tsx:231 | the tour list is the first `min(5, n)` posts |
| FlyThrough.Chain | src/Map.tsx:120-133 | one leg per post in list order; only the last leg's completion ends the tour |
| FlyThrough.Start | src/Map.tsx:229-231 | the button starts a tour exactly when not flying and the list is non-empty; the tour sets `flying`, keeps the live camera and selection, and first waits 3000 ms |
| FlyThrough.Step | src/Map.tsx:120-149 | while a leg is pending, only its due timeout changes anything; that timeout starts the leg at once: it clears the selection and runs a 3000 ms animation from the live camera to the leg target; a tick past the leg's end completes it and shows its post at the leg target; after a non-last leg the next leg waits 3000 ms, and after the last one the tour is finished; `flying` clears only after the last leg; a finished tour ignores events |
| FlyThrough.FlyingUntilLastLeg | src/Map.tsx:123-127 | `flying` is false exactly when the tour is finished, which is exactly when every leg has shown its post |
| FlyThrough.RunEvents | src/Map.tsx:120-151 | any sequence of events keeps the tour invariant, the legs, and the posts already shown |
| FlyThrough.TourCompletes | src/Map.tsx:120-151 | with timely events a waiting tour shows every remaining leg's post in order and clears `flying` |
| FlyThrough.TourShowsWaypointsInOrder | src/Map.tsx:229-231 | pressing the button and following the schedule shows the first `min(5, n)` posts in order, each once, and clears `flying` |
| Posts.GetPostsInternal | convex/posts.ts:51-64 | at most one doc per id, all from the table; equal length exactly when every id resolves, then the i-th doc is the doc of the i-th id |
| Posts.GetPostsKeepsOrder | convex/posts.ts:55-61 | docs follow the order of their ids and every resolving id contributes |
| Posts.DuplicateIdsGiveDuplicateDocs | convex/posts.ts:55-60 | an id given twice yields its doc twice |
| Posts.SearchPosts | convex/posts.ts:79-81 | one score per hit, in hit order; docs are looked up from the same ids, so there are never more docs than scores |
| Posts.SearchPostsAlignedWhenComplete | convex/posts.ts:79-81 | when every hit resolves, each doc sits next to the score of the hit that found it |
| Posts.SearchPostsMisalignsOnMissingDoc | convex/posts.ts:79-81 | a missing doc shifts the next doc onto the previous hit's score |
| Posts.SearchPostsAligned | convex/posts.ts:79-81 | corrected response: every doc is paired with the score of its own hit |
| Posts.CorrectionAgreesWhenComplete | convex/posts.ts:79-81 | the correction returns the same response whenever no doc is missing |
| MapSearch.KeptCount | src/Map.tsx:80-83 | the loop does not break before the returned index and breaks at it unless posts ran out |
| MapSearch.KeepPrefix | src/Map.tsx:80-83 | the kept posts are the longest prefix on which no score is below 0.4 |
| MapSearch.NothingKeptAfterLowScore | src/Map.tsx:80-83 | no post at or after a score below 0.4 is kept, however high its own score |
| MapSearch.KeepPrefixOfPairedScores | src/Map.tsx:80-83 | with one score per post, every kept score is at least 0.4 and the first dropped one is below it |
| MapSearch.HandleSubmit | src/Map.tsx:69-112 | the previous group is released; the clusters are the kept posts added one by one to a fresh group, then passed through polygon generation, and the polygons are those that pass collected; the clusters hold exactly the kept posts; exactly when something was kept, a running camera move starts now, from the live camera to the first kept post at range 1000, lasts 2000 ms, and selects that post on arrival; otherwise nothing is moved or selected; the fly-through list is the kept posts |
| MapSearch.AlignedKeepsOwnScores | src/Map.tsx:80-85 | when every post sits next to its own hit's score, each kept post's own score is at least 0.4 |
| MapSearch.CorrectedSearchKeepsOwnScores | src/Map.tsx:76-83 | with the corrected response, every post the loop keeps has its own hit's score next to it, and that score is at least 0.4 |
| MapSearch.KeepsShiftedPost | src/Map.tsx:80-83 | one post with scores `[0.9, 0.3]` is kept, because the loop only reads the first score |
| MapSearch.MissingDocKeepsLowScoredPost | src/Map.tsx:80-86 | with the response as written, a post whose own score is 0.3 is kept and flown to |
| PostForm.HandleSubmitPost | src/PostModal.tsx:35-86 | empty text is reported first, then a non-empty invalid URL, and neither sends anything; an accepted form has exactly these effects: the photo upload if and only if a file is chosen, then `makePost` once, then hiding the modal |
| PostForm.SentArgsFollowForm | src/PostModal.tsx:57-81 | the sent arguments have the typed text; each coordinate as known, or 0 when missing; the URL, unchanged, exactly when non-empty, and then it is valid; the selected tag, unchanged, exactly when non-empty; and a photo id exactly when a file was chosen |
| PostForm.RejectionChangesOnlyError | src/PostModal.tsx:47-55 | a rejected submission sends nothing and changes only the error |
| PostForm.TextCheckedBeforeUrl | src/PostModal.tsx:47-55 | empty text is reported even when the URL is also invalid |
| PostForm.EnabledFormSendsLatitude | src/PostModal.tsx:189 | Send is enabled only with a latitude, so the sent latitude is the real one |
| PostForm.SetTag | src/PostModal.tsx:88-94 | choosing the selected tag clears it, any other tag replaces it, nothing else changes; at most one tag is selected |
| PostForm.SetTagTwice | src/PostModal.tsx:88-94 | toggling a tag twice restores the selection exactly when none or that tag was selected |
| PostForm.SentTagIsSelected | src/PostModal.tsx:68-70 | after choosing a new tag, that tag is the one sent |

## Left out

- Geodesic distance (geolib `getDistance`) and the convex hull (turf `convex`) are parameters. Nothing about great-circle math or hull geometry is modelled.
- Google Maps objects are reduced to recorded removals and vertex lists: markers, `Polygon3DElement`, `append`/`remove` and click listeners.
- `MapPost` is reduced to the post document it wraps. Its marker creation and the marker flag in its `removeMapResources` are not modelled; only the removal request is recorded.
- `setTimeout`, `setInterval` and `Date.now` become `TimerFired`/`Tick` events carrying a timestamp.
- Concurrent or overlapping animations are not modelled, for example a new search while a tour flies. Neither are ticks arriving out of order.
- Camera.Begin: requires a positive duration. A zero duration would divide by zero in the source; every call uses 2000 or 3000 ms.
- Floating point is not modelled (`real` is used throughout): no rounding, no `Infinity` arithmetic, no NaN.
- React state and hooks, JSX, the marker detail modal, the loading spinner and the window.ai prompt (`promptAI`) are UI or external calls.
- The embedding request, the vector search (at most 30 hits) and the storage URLs are network calls. The hits are an input to the model.
- `createPost`, `createPostInternal` and geohash encoding in convex/posts.ts are not modelled: database writes and foreign calls.
- The photo upload itself (`generateUploadUrl` and `fetch`) is recorded as one `UploadPhoto` effect, and the storage id is a parameter.
- `navigator.geolocation` is not modelled; the position is an input.
- `isValidUrl` is a parameter, because it relies on the `URL` constructor.
- populate.py, src/App.tsx, src/main.tsx and convex/schema.ts are not part of this model: a data script, bootstrap and a declarative schema.
- FlyThrough.TourCompletes: shown only for the schedule that fires each timeout on time and ticks once just after each leg's end. Other event orders are covered only by the per-step invariant.

## Findings

| source | as written | input that shows it | evidently intended | confidence | as-written member | corrected member |
|---|---|---|---|---|---|---|
| convex/posts.ts:79-81 with src/Map.tsx:80-85 | `searchPosts` returns one score per vector hit but drops hits whose document is gone, and `handleSubmit` pairs `posts[i]` with `scores[i]` | hits `[(1, 0.9), (2, 0.3)]` with only post 2 in the table: the response is `([post2], [0.9, 0.3])`, so post 2 is kept and flown to on score 0.9 although its own score is 0.3 | each post is paired with the score of its own hit | not executed; needs a post deleted between the vector search and the lookup | Posts.SearchPostsMisalignsOnMissingDoc | Posts.SearchPostsAligned |

=== FILE: camera.dfy ===
/** Time-bounded linear camera interpolation, driven by explicit ticks that
    carry the current time in milliseconds. */
module Camera {

  /** `{lat, lng, range}`: where the camera looks and from how far. */
  datatype CameraState = CameraState(lat: real, lng: real, range: real)

  /** `start + (end - start) * t`. */
  function Lerp(a: real, b: real, t: real): real
  {
    a + (b - a) * t
  }

  /** `x` lies between `a` and `b`, whichever is larger. */
  predicate Between(x: real, a: real, b: real)
  {
    (a <= x <= b) || (b <= x <= a)
  }

  lemma MulNonNegative(x: real, y: real)
    requires x >= 0.0 && y >= 0.0
    ensures x * y >= 0.0
  {
  }

  lemma LerpBetween(a: real, b: real, t: real)
    requires 0.0 <= t <= 1.0
    ensures Between(Lerp(a, b, t), a, b)
  {
    assert (b - a) * (1.0 - t) == (b - a) - (b - a) * t;
    if a <= b {
      MulNonNegative(b - a, t);
      MulNonNegative(b - a, 1.0 - t);
    } else {
      MulNonNegative(a - b, t);
      MulNonNegative(a - b, 1.0 - t);
      assert (a - b) * t == -((b - a) * t);
      assert (a - b) * (1.0 - t) == -((b - a) * (1.0 - t));
    }
  }

  /** Each of lat, lng and range interpolated independently. */
  function Blend(start: CameraState, end: CameraState, t: real): (c: CameraState)
    ensures t == 0.0 ==> c == start
    ensures t == 1.0 ==> c == end
    ensures 0.0 <= t <= 1.0 ==>
      Between(c.lat, start.lat, end.lat) && Between(c.lng, start.lng, end.lng) &&
      Between(c.range, start.range, end.range)
  {
    assert 0.0 <= t <= 1.0 ==>
      (Between(Lerp(start.lat, end.lat, t), start.lat, end.lat) &&
       Between(Lerp(start.lng, end.lng, t), start.lng, end.lng) &&
       Between(Lerp(start.range, end.range, t), start.range, end.range)) by {
      if 0.0 <= t <= 1.0 {
        LerpBetween(start.lat, end.lat, t);
        LerpBetween(start.lng, end.lng, t);
        LerpBetween(start.range, end.range, t);
      }
    }
    CameraState(Lerp(start.lat, end.lat, t), Lerp(start.lng, end.lng, t), Lerp(start.range, end.range, t))
  }

  /** One `interpolate` call: its endpoints, its time window, whether a
      completion callback was passed, and whether its interval still ticks. */
  datatype Interpolation = Interpolation(
    start: CameraState,
    end: CameraState,
    startTime: int,
    endTime: int,
    hasCallback: bool,
    running: bool)

  predicate Valid(it: Interpolation)
  {
    it.startTime < it.endTime
  }

  /** `interpolate(start, end, durationMS, onUpdate, callback?)` at time `now`. */
  function Begin(start: CameraState, end: CameraState, durationMS: int, now: int, hasCallback: bool): (it: Interpolation)
    requires durationMS > 0
    ensures Valid(it) && it.running
    ensures it.startTime == now && it.endTime - it.startTime == durationMS
    ensures it.start == start && it.end == end && it.hasCallback == hasCallback
  {
    Interpolation(start, end, now, now + durationMS, hasCallback, true)
  }

  /** `t = (now - startTime) / (endTime - startTime)`. */
  function Fraction(it: Interpolation, now: int): real
    requires Valid(it)
  {
    (now - it.startTime) as real / (it.endTime - it.startTime) as real
  }

  /** Within the time window the fraction lies in `[0, 1]`, starting at 0
      and reaching 1 exactly at the end time. */
  lemma FractionInUnitInterval(it: Interpolation, now: int)
    requires Valid(it) && it.startTime <= now <= it.endTime
    ensures 0.0 <= Fraction(it, now) <= 1.0
    ensures now == it.startTime ==> Fraction(it, now) == 0.0
    ensures now == it.endTime ==> Fraction(it, now) == 1.0
  {
    var num := (now - it.startTime) as real;
    var den := (it.endTime - it.startTime) as real;
    assert 0.0 <= num <= den;
  }

  /** What a tick hands to `onUpdate` and whether the callback runs. */
  datatype Output = Update(camera: CameraState) | Callback

  datatype Ticked = Ticked(next: Interpolation, outputs: seq<Output>)

  /** The final tick's outputs: the exact end state, then the callback. */
  function Snap(it: Interpolation): seq<Output>
  {
    [Update(it.end)] + (if it.hasCallback then [Callback] else [])
  }

  /** One firing of the 10 ms interval at time `now`. */
  function Tick(it: Interpolation, now: int): (r: Ticked)
    requires Valid(it)
    ensures Valid(r.next)
    ensures r.next == it.(running := r.next.running)
    ensures !it.running ==> r.next == it && r.outputs == []
    ensures it.running && now > it.endTime ==> !r.next.running && r.outputs == Snap(it)
    ensures it.running && now <= it.endTime ==>
      r.next == it && r.outputs == [Update(Blend(it.start, it.end, Fraction(it, now)))]
  {
    if !it.running then Ticked(it, [])
    else if now > it.endTime then Ticked(it.(running := false), Snap(it))
    else Ticked(it, [Update(Blend(it.start, it.end, Fraction(it, now)))])
  }

  /** A sequence of ticks, in order, with all their outputs. */
  function Run(it: Interpolation, times: seq<int>): (r: Ticked)
    requires Valid(it)
    ensures Valid(r.next)
    ensures r.next == it.(running := r.next.running)
    decreases |times|
  {
    if |times| == 0 then Ticked(it, [])
    else
      var first := Tick(it, times[0]);
      var rest := Run(first.next, times[1..]);
      Ticked(rest.next, first.outputs + rest.outputs)
  }

  function CountCallbacks(outs: seq<Output>): nat
  {
    if |outs| == 0 then 0
    else (if outs[0].Callback? then 1 else 0) + CountCallbacks(outs[1..])
  }

  lemma {:induction false} CountCallbacksAppend(a: seq<Output>, b: seq<Output>)
    ensures CountCallbacks(a + b) == CountCallbacks(a) + CountCallbacks(b)
    decreases |a|
  {
    if |a| == 0 {
      assert a + b == b;
    } else {
      assert (a + b)[0] == a[0];
      assert (a + b)[1..] == a[1..] + b;
      CountCallbacksAppend(a[1..], b);
    }
  }

  /** Once the interval is cleared nothing more is reported. */
  lemma {:induction false} StoppedRunIsSilent(it: Interpolation, times: seq<int>)
    requires Valid(it) && !it.running
    ensures Run(it, times) == Ticked(it, [])
    decreases |times|
  {
    if |times| > 0 {
      StoppedRunIsSilent(it, times[1..]);
    }
  }

  /** Some tick of `times` comes after the end time. */
  predicate PassesEnd(it: Interpolation, times: seq<int>)
  {
    exists i :: 0 <= i < |times| && times[i] > it.endTime
  }

  /** A running interpolation stops exactly when some tick passes the end
      time: it cannot stop early and it cannot miss that tick. */
  lemma {:induction false} RunStopsIffPassesEnd(it: Interpolation, times: seq<int>)
    requires Valid(it) && it.running
    ensures !Run(it, times).next.running <==> PassesEnd(it, times)
    decreases |times|
  {
    if |times| > 0 {
      var first := Tick(it, times[0]);
      if times[0] > it.endTime {
        StoppedRunIsSilent(first.next, times[1..]);
        assert PassesEnd(it, times);
      } else {
        RunStopsIffPassesEnd(it, times[1..]);
        PassesEndTail(it, times);
      }
    }
  }

  lemma PassesEndTail(it: Interpolation, times: seq<int>)
    requires |times| > 0 && times[0] <= it.endTime
    ensures PassesEnd(it, times) <==> PassesEnd(it, times[1..])
  {
    if PassesEnd(it, times) {
      var i :| 0 <= i < |times| && times[i] > it.endTime;
      assert times[1..][i - 1] > it.endTime;
    }
    if PassesEnd(it, times[1..]) {
      var i :| 0 <= i < |times[1..]| && times[1..][i] > it.endTime;
      assert times[i + 1] > it.endTime;
    }
  }

  /** Once stopped, the outputs finish with the exact end state followed by
      the callback: no interpolated update comes after them. */
  lemma {:induction false} RunEndsWithSnap(it: Interpolation, times: seq<int>)
    requires Valid(it) && it.running && !Run(it, times).next.running
    ensures var outs := Run(it, times).outputs;
      |outs| >= |Snap(it)| && outs[|outs| - |Snap(it)|..] == Snap(it)
    decreases |times|
  {
    var first := Tick(it, times[0]);
    var rest := Run(first.next, times[1..]);
    var outs := Run(it, times).outputs;
    assert outs == first.outputs + rest.outputs;
    if times[0] > it.endTime {
      StoppedRunIsSilent(first.next, times[1..]);
      assert outs == Snap(it);
    } else {
      RunEndsWithSnap(it, times[1..]);
      var m := |Snap(it)|;
      assert outs[|outs| - m..] == rest.outputs[|rest.outputs| - m..];
    }
  }

  /** The callback is reported exactly once if it was given and the run
      stopped, and never otherwise. */
  lemma {:induction false} RunCallsBackOnce(it: Interpolation, times: seq<int>)
    requires Valid(it) && it.running
    ensures var r := Run(it, times);
      CountCallbacks(r.outputs) == (if it.hasCallback && !r.next.running then 1 else 0)
    decreases |times|
  {
    if |times| > 0 {
      var first := Tick(it, times[0]);
      var rest := Run(first.next, times[1..]);
      CountCallbacksAppend(first.outputs, rest.outputs);
      if times[0] > it.endTime {
        StoppedRunIsSilent(first.next, times[1..]);
        assert first.outputs == Snap(it);
        assert CountCallbacks([Update(it.end)]) == 0;
        assert CountCallbacks([Callback]) == 1;
        CountCallbacksAppend([Update(it.end)], if it.hasCallback then [Callback] else []);
      } else {
        RunCallsBackOnce(it, times[1..]);
        assert CountCallbacks(first.outputs) == 0;
      }
    }
  }

  /** Before the end time every reported state is on the straight line from
      start to end, between the two endpoints. */
  lemma TickBeforeEndStaysBetween(it: Interpolation, now: int)
    requires Valid(it) && it.running && it.startTime <= now <= it.endTime
    ensures var c := Tick(it, now).outputs[0].camera;
      Between(c.lat, it.start.lat, it.end.lat) && Between(c.lng, it.start.lng, it.end.lng) &&
      Between(c.range, it.start.range, it.end.range)
  {
    FractionInUnitInterval(it, now);
  }
}

=== FILE: cluster.dfy ===
/** One cluster of map posts: its members in arrival order, the stored center
    that distances are measured from, and the boundary polygon it last built. */
module PostCluster {
  import opened Options
  import opened Docs

  /** A cluster needs this many members before a boundary is attempted. */
  const MinPolygonPosts: nat := 3
  /** Height above ground given to every boundary vertex. */
  const PolygonAltitude: real := 0.5

  /** A planar point in the hull library's `[x, y]` order, i.e. `[lng, lat]`. */
  datatype HullPoint = HullPoint(x: real, y: real)

  /** A boundary vertex in the renderer's `{lat, lng, altitude}` order. */
  datatype Vertex = Vertex(lat: real, lng: real, altitude: real)

  /** Convex hull of a point collection, supplied by a geometry library whose
      internals are not modelled: the outer ring, or nothing when the library
      finds no polygon. */
  type Hull = seq<HullPoint> -> Option<seq<HullPoint>>

  datatype Cluster = Cluster(posts: seq<Doc>, center: LatLng, polygon: Option<seq<Vertex>>)

  /** The state every cluster of the program is in: non-empty, with the
      center still at the seed post (nothing ever moves it). */
  predicate CenteredOnSeed(c: Cluster)
  {
    |c.posts| > 0 && c.center == Position(c.posts[0])
  }

  /** The constructor: the seed is the only member and fixes the center. */
  function New(seed: Doc): (c: Cluster)
    ensures c.posts == [seed]
    ensures CenteredOnSeed(c)
    ensures c.center == Position(seed)
    ensures c.polygon.None?
  {
    Cluster([seed], Position(seed), None)
  }

  /** Distance from `coord` to the stored center. */
  function ComputeDistance(dist: Distance, c: Cluster, coord: LatLng): real
  {
    dist(coord, c.center)
  }

  /** Without a call to `UpdateCenter`, every distance is measured to the
      cluster's first post, however many members it has gained. */
  lemma DistanceToSeed(dist: Distance, c: Cluster, coord: LatLng)
    requires CenteredOnSeed(c)
    ensures ComputeDistance(dist, c, coord) == dist(coord, Position(c.posts[0]))
  {
  }

  /** Appends a member; the center and the polygon are left as they were. */
  function AddPost(c: Cluster, p: Doc): (r: Cluster)
    ensures |r.posts| == |c.posts| + 1
    ensures r.posts[..|c.posts|] == c.posts && r.posts[|c.posts|] == p
    ensures multiset(r.posts) == multiset(c.posts) + multiset{p}
    ensures r.center == c.center && r.polygon == c.polygon
    ensures CenteredOnSeed(c) ==> CenteredOnSeed(r) && r.posts[0] == c.posts[0]
  {
    c.(posts := c.posts + [p])
  }

  // ---------------------------------------------------------------------
  // The arithmetic-mean center

  /** Left-to-right sum of `f` over the members, as `reduce` with start 0. */
  function SumOf(ps: seq<Doc>, f: Doc -> real): real
  {
    if |ps| == 0 then 0.0 else SumOf(ps[..|ps| - 1], f) + f(ps[|ps| - 1])
  }

  function Lat(d: Doc): real { d.lat }
  function Lng(d: Doc): real { d.lng }

  /** Moves the center to the mean member latitude and longitude. */
  function UpdateCenter(c: Cluster): (r: Cluster)
    requires |c.posts| > 0
    ensures r.posts == c.posts && r.polygon == c.polygon
    ensures |c.posts| == 1 ==> r.center == Position(c.posts[0])
    ensures r.center.lat * |c.posts| as real == SumOf(c.posts, Lat)
    ensures r.center.lng * |c.posts| as real == SumOf(c.posts, Lng)
  {
    var n := |c.posts| as real;
    assert |c.posts| == 1 ==> SumOf(c.posts, Lat) == c.posts[0].lat && SumOf(c.posts, Lng) == c.posts[0].lng by {
      if |c.posts| == 1 {
        assert c.posts[..0] == [];
      }
    }
    c.(center := LatLng(SumOf(c.posts, Lat) / n, SumOf(c.posts, Lng) / n))
  }

  /** Removing one member takes exactly its value out of the sum. */
  lemma {:induction false} SumOfRemove(ps: seq<Doc>, j: nat, f: Doc -> real)
    requires j < |ps|
    ensures SumOf(ps, f) == SumOf(ps[..j] + ps[j + 1..], f) + f(ps[j])
    decreases |ps|
  {
    var n := |ps|;
    if j == n - 1 {
      assert ps[..j] + ps[j + 1..] == ps[..n - 1];
    } else {
      var front := ps[..n - 1];
      SumOfRemove(front, j, f);
      var rest := ps[..j] + ps[j + 1..];
      assert rest[..|rest| - 1] == front[..j] + front[j + 1..];
      assert rest[|rest| - 1] == ps[n - 1];
    }
  }

  lemma MultisetRemove(b: seq<Doc>, j: nat)
    requires j < |b|
    ensures multiset(b[..j] + b[j + 1..]) == multiset(b) - multiset{b[j]}
  {
    assert b == b[..j] + [b[j]] + b[j + 1..];
  }

  /** The sum depends only on which members there are, not on their order. */
  lemma {:induction false} SumOfPermutation(a: seq<Doc>, b: seq<Doc>, f: Doc -> real)
    requires multiset(a) == multiset(b)
    ensures SumOf(a, f) == SumOf(b, f)
    decreases |a|
  {
    if |a| == 0 {
      assert |multiset(b)| == 0;
    } else {
      var n := |a|;
      var x := a[n - 1];
      assert a == a[..n - 1] + [x];
      assert x in multiset(b);
      var j :| 0 <= j < |b| && b[j] == x;
      var b' := b[..j] + b[j + 1..];
      MultisetRemove(b, j);
      assert multiset(a[..n - 1]) == multiset(a) - multiset{x};
      SumOfPermutation(a[..n - 1], b', f);
      SumOfRemove(b, j, f);
    }
  }

  /** The mean center does not depend on insertion order. */
  lemma CenterIgnoresOrder(c: Cluster, d: Cluster)
    requires |c.posts| > 0 && multiset(c.posts) == multiset(d.posts)
    ensures |d.posts| > 0
    ensures UpdateCenter(c).center == UpdateCenter(d).center
  {
    assert |multiset(c.posts)| == |multiset(d.posts)|;
    SumOfPermutation(c.posts, d.posts, Lat);
    SumOfPermutation(c.posts, d.posts, Lng);
  }

  /** A sum of values within `[lo, hi]` lies within `[n lo, n hi]`. */
  lemma {:induction false} SumOfBounds(ps: seq<Doc>, f: Doc -> real, lo: real, hi: real)
    requires forall i :: 0 <= i < |ps| ==> lo <= f(ps[i]) <= hi
    ensures |ps| as real * lo <= SumOf(ps, f) <= |ps| as real * hi
    decreases |ps|
  {
    if |ps| > 0 {
      var n := |ps|;
      SumOfBounds(ps[..n - 1], f, lo, hi);
      assert (n - 1) as real * lo + lo == n as real * lo;
      assert (n - 1) as real * hi + hi == n as real * hi;
    }
  }

  /** The mean of values within `[lo, hi]` lies within `[lo, hi]`. */
  lemma MeanBounds(s: real, n: real, lo: real, hi: real)
    requires n > 0.0 && n * lo <= s <= n * hi
    ensures lo <= s / n <= hi
  {
  }

  lemma MeanOfWithin(ps: seq<Doc>, f: Doc -> real, lo: real, hi: real)
    requires |ps| > 0
    requires forall i :: 0 <= i < |ps| ==> lo <= f(ps[i]) <= hi
    ensures lo <= SumOf(ps, f) / |ps| as real <= hi
  {
    SumOfBounds(ps, f, lo, hi);
    MeanBounds(SumOf(ps, f), |ps| as real, lo, hi);
  }

  /** The mean center lies inside the bounding box of the members. */
  lemma CenterWithinMembers(c: Cluster, latLo: real, latHi: real, lngLo: real, lngHi: real)
    requires |c.posts| > 0
    requires forall i :: 0 <= i < |c.posts| ==> latLo <= c.posts[i].lat <= latHi
    requires forall i :: 0 <= i < |c.posts| ==> lngLo <= c.posts[i].lng <= lngHi
    ensures latLo <= UpdateCenter(c).center.lat <= latHi
    ensures lngLo <= UpdateCenter(c).center.lng <= lngHi
  {
    assert forall i :: 0 <= i < |c.posts| ==> latLo <= Lat(c.posts[i]) <= latHi;
    MeanOfWithin(c.posts, Lat, latLo, latHi);
    assert forall i :: 0 <= i < |c.posts| ==> lngLo <= Lng(c.posts[i]) <= lngHi;
    MeanOfWithin(c.posts, Lng, lngLo, lngHi);
  }

  // ---------------------------------------------------------------------
  // The boundary polygon

  /** One hull input point per member, in member order, longitude first. */
  function HullInput(ps: seq<Doc>): (pts: seq<HullPoint>)
    ensures |pts| == |ps|
    ensures forall i :: 0 <= i < |ps| ==> pts[i].x == ps[i].lng && pts[i].y == ps[i].lat
  {
    seq(|ps|, i requires 0 <= i < |ps| => HullPoint(ps[i].lng, ps[i].lat))
  }

  /** Maps a hull ring `[x, y]` back to `{lat: y, lng: x, altitude: 0.5}`. */
  function ToRing(ring: seq<HullPoint>): (vs: seq<Vertex>)
    ensures |vs| == |ring|
    ensures forall i :: 0 <= i < |ring| ==>
      vs[i].lat == ring[i].y && vs[i].lng == ring[i].x && vs[i].altitude == PolygonAltitude
  {
    seq(|ring|, i requires 0 <= i < |ring| => Vertex(ring[i].y, ring[i].x, PolygonAltitude))
  }

  /** The axis swap on the way in is undone on the way out: a hull that kept
      its input points would put each vertex back on its member's lat/lng. */
  lemma AxisSwapRoundTrip(ps: seq<Doc>)
    ensures |ToRing(HullInput(ps))| == |ps|
    ensures forall i :: 0 <= i < |ps| ==>
      ToRing(HullInput(ps))[i] == Vertex(ps[i].lat, ps[i].lng, PolygonAltitude)
  {
  }

  /** The polygon a cluster with members `ps` builds. */
  function Boundary(ps: seq<Doc>, hull: Hull): (r: Option<seq<Vertex>>)
    ensures |ps| < MinPolygonPosts ==> r.None?
    ensures |ps| >= MinPolygonPosts ==> (r.Some? <==> hull(HullInput(ps)).Some?)
    ensures r.Some? ==> |ps| >= MinPolygonPosts && r.value == ToRing(hull(HullInput(ps)).value)
  {
    if |ps| < MinPolygonPosts then None
    else
      match hull(HullInput(ps))
      case None => None
      case Some(ring) => Some(ToRing(ring))
  }

  /** `generatePolygon`: forgets the previous polygon, builds a new one when
      there are enough members and the hull exists, and returns it. */
  function GeneratePolygon(c: Cluster, hull: Hull): (r: Cluster)
    ensures r.posts == c.posts && r.center == c.center
    ensures |c.posts| < MinPolygonPosts ==> r.polygon.None?
    ensures r.polygon.Some? <==> |c.posts| >= MinPolygonPosts && hull(HullInput(c.posts)).Some?
    ensures r.polygon.Some? ==> r.polygon.value == ToRing(hull(HullInput(c.posts)).value)
  {
    c.(polygon := Boundary(c.posts, hull))
  }

  // ---------------------------------------------------------------------
  // Releasing map resources

  /** What `removeMapResources` asks the renderer to do. */
  datatype Removal = PolygonRemoved(ring: seq<Vertex>) | MarkerRemovalRequested(post: Doc)

  datatype Released = Released(cluster: Cluster, removals: seq<Removal>)

  /** Removal requests for the markers of `ps`, in member order. */
  function MarkerRemovals(ps: seq<Doc>): (rs: seq<Removal>)
    ensures |rs| == |ps|
    ensures forall i :: 0 <= i < |ps| ==> rs[i] == MarkerRemovalRequested(ps[i])
  {
    seq(|ps|, i requires 0 <= i < |ps| => MarkerRemovalRequested(ps[i]))
  }

  /** Removes the polygon if there is one, then asks every member to remove
      its marker. */
  function RemoveMapResources(c: Cluster): (r: Released)
    ensures r.cluster.posts == c.posts && r.cluster.center == c.center
    ensures r.cluster.polygon.None?
    ensures |r.removals| == |c.posts| + (if c.polygon.Some? then 1 else 0)
    ensures c.polygon.Some? ==> r.removals[0] == PolygonRemoved(c.polygon.value)
    ensures r.removals[|r.removals| - |c.posts|..] == MarkerRemovals(c.posts)
  {
    var polygonRemovals := if c.polygon.Some? then [PolygonRemoved(c.polygon.value)] else [];
    Released(c.(polygon := None), polygonRemovals + MarkerRemovals(c.posts))
  }

  /** A second release finds no polygon left to remove. */
  lemma SecondRemovalRemovesNoPolygon(c: Cluster)
    ensures var again := RemoveMapResources(RemoveMapResources(c).cluster);
      again.cluster == RemoveMapResources(c).cluster &&
      forall i :: 0 <= i < |again.removals| ==> again.removals[i].MarkerRemovalRequested?
  {
  }
}

=== FILE: cluster_group.dfy ===
/** The ordered list of clusters built from one batch of search results, and
    the greedy nearest-cluster assignment that grows it. */
module PostClusterGroup {
  import opened Options
  import opened Docs
  import PC = PostCluster

  /** A post joins an existing cluster only when strictly closer than this
      many metres to its center. */
  const ClusterRadius: real := 1000.0

  type Group = seq<PC.Cluster>

  /** The constructor: no clusters yet. */
  function Empty(): (g: Group)
    ensures |g| == 0 && Members(g) == multiset{}
  {
    []
  }

  /** Every cluster is non-empty and still centered on its seed. */
  predicate WellFormed(g: Group)
  {
    forall j :: 0 <= j < |g| ==> PC.CenteredOnSeed(g[j])
  }

  /** No cluster holds a polygon yet. */
  predicate NoPolygons(g: Group)
  {
    forall j :: 0 <= j < |g| ==> g[j].polygon.None?
  }

  /** All members of all clusters, counted with multiplicity. */
  function Members(g: Group): multiset<Doc>
  {
    if |g| == 0 then multiset{} else Members(g[..|g| - 1]) + multiset(g[|g| - 1].posts)
  }

  // ---------------------------------------------------------------------
  // The nearest-under-threshold scan

  /** `minDist`: infinite until some cluster qualifies. */
  datatype Bound = Infinity | Finite(value: real)

  predicate Below(d: real, b: Bound)
  {
    b.Infinity? || d < b.value
  }

  /** The loop variables `clusterToAddTo` (as an index) and `minDist`. */
  datatype Scan = Scan(target: Option<nat>, minDist: Bound)

  /** One loop iteration: take cluster `i` when it is within the radius and
      strictly closer than the best so far. */
  function Step(s: Scan, i: nat, d: real): Scan
  {
    if d < ClusterRadius && Below(d, s.minDist) then Scan(Some(i), Finite(d)) else s
  }

  /** No distance among the first `n` is under the radius. */
  ghost predicate NoneWithin(ds: seq<real>, n: nat)
    requires n <= |ds|
  {
    forall j :: 0 <= j < n ==> ds[j] >= ClusterRadius
  }

  /** Among the first `n` distances, `k` is under the radius, no qualifying
      distance is smaller, and every earlier qualifying one is larger. */
  ghost predicate IsNearest(ds: seq<real>, n: nat, k: nat)
    requires n <= |ds|
  {
    && k < n
    && ds[k] < ClusterRadius
    && (forall j :: 0 <= j < n && ds[j] < ClusterRadius ==> ds[k] <= ds[j])
    && (forall j :: 0 <= j < k && ds[j] < ClusterRadius ==> ds[k] < ds[j])
  }

  /** The loop invariant: `s` is the outcome of scanning the first `n`. */
  ghost predicate Summarises(ds: seq<real>, n: nat, s: Scan)
    requires n <= |ds|
  {
    && (s.target.None? ==> NoneWithin(ds, n) && s.minDist == Infinity)
    && (s.target.Some? ==> IsNearest(ds, n, s.target.value) && s.minDist == Finite(ds[s.target.value]))
  }

  /** The rest of the loop, from cluster `i` on. */
  function ScanFrom(ds: seq<real>, i: nat, s: Scan): (r: Scan)
    requires i <= |ds| && Summarises(ds, i, s)
    ensures Summarises(ds, |ds|, r)
    decreases |ds| - i
  {
    if i == |ds| then s else ScanFrom(ds, i + 1, Step(s, i, ds[i]))
  }

  /** The whole loop over the distances, from `clusterToAddTo = null` and
      `minDist = Infinity`. */
  function Choose(ds: seq<real>): (r: Option<nat>)
    ensures r.None? <==> NoneWithin(ds, |ds|)
    ensures r.Some? ==> IsNearest(ds, |ds|, r.value)
  {
    ScanFrom(ds, 0, Scan(None, Infinity)).target
  }

  /** The nearest-cluster specification admits one answer only, so `Choose`
      is fully determined by it. */
  lemma NearestIsUnique(ds: seq<real>, k1: nat, k2: nat)
    requires IsNearest(ds, |ds|, k1) && IsNearest(ds, |ds|, k2)
    ensures k1 == k2
  {
  }

  /** Distance from the post's coordinates to each cluster, in cluster order. */
  function Distances(dist: Distance, g: Group, at: LatLng): (ds: seq<real>)
    ensures |ds| == |g|
    ensures forall j :: 0 <= j < |g| ==> ds[j] == PC.ComputeDistance(dist, g[j], at)
  {
    seq(|g|, j requires 0 <= j < |g| => PC.ComputeDistance(dist, g[j], at))
  }

  /** The cluster a new post joins, if any. */
  function Target(dist: Distance, g: Group, p: Doc): (r: Option<nat>)
    ensures r.None? <==> forall j :: 0 <= j < |g| ==> PC.ComputeDistance(dist, g[j], Position(p)) >= ClusterRadius
    ensures r.Some? ==> r.value < |g| && IsNearest(Distances(dist, g, Position(p)), |g|, r.value)
  {
    Choose(Distances(dist, g, Position(p)))
  }

  // ---------------------------------------------------------------------
  // Adding a post

  /** Members are counted cluster by cluster, so they add up over a split. */
  lemma {:induction false} MembersConcat(a: Group, b: Group)
    ensures Members(a + b) == Members(a) + Members(b)
    decreases |b|
  {
    if |b| == 0 {
      assert a + b == a;
    } else {
      var front := b[..|b| - 1];
      assert (a + b)[..|a + b| - 1] == a + front;
      assert (a + b)[|a + b| - 1] == b[|b| - 1];
      MembersConcat(a, front);
    }
  }

  lemma MembersSingle(c: PC.Cluster)
    ensures Members([c]) == multiset(c.posts)
  {
    assert [c][..0] == [];
  }

  /** Adding a post to one cluster adds exactly that post to the members. */
  lemma MembersAddAt(g: Group, k: nat, p: Doc)
    requires k < |g|
    ensures Members(g[k := PC.AddPost(g[k], p)]) == Members(g) + multiset{p}
  {
    var c := PC.AddPost(g[k], p);
    var before, after := g[..k], g[k + 1..];
    assert g == before + [g[k]] + after;
    assert g[k := c] == before + [c] + after;
    MembersConcat(before + [g[k]], after);
    MembersConcat(before, [g[k]]);
    MembersConcat(before + [c], after);
    MembersConcat(before, [c]);
    MembersSingle(g[k]);
    MembersSingle(c);
  }

  lemma MembersAppend(g: Group, c: PC.Cluster)
    ensures Members(g + [c]) == Members(g) + multiset(c.posts)
  {
    assert (g + [c])[..|g|] == g;
  }

  /** `addPost`: join the nearest cluster under the radius (the earliest on
      a tie), or start a new cluster at the end of the list. */
  function AddPost(dist: Distance, g: Group, p: Doc): (r: Group)
    ensures |g| <= |r| <= |g| + 1
    ensures Members(r) == Members(g) + multiset{p}
    ensures Target(dist, g, p).None? ==> r == g + [PC.New(p)]
    ensures Target(dist, g, p).Some? ==>
      var k := Target(dist, g, p).value;
      && |r| == |g|
      && r[k] == PC.AddPost(g[k], p)
      && r[k].posts == g[k].posts + [p]
      && forall j :: 0 <= j < |g| && j != k ==> r[j] == g[j]
  {
    match Target(dist, g, p)
    case None =>
      MembersAppend(g, PC.New(p));
      g + [PC.New(p)]
    case Some(k) =>
      MembersAddAt(g, k, p);
      g[k := PC.AddPost(g[k], p)]
  }

  /** Adding a post keeps every cluster non-empty and seed-centered, and
      adds no polygon. */
  lemma AddPostKeepsShape(dist: Distance, g: Group, p: Doc)
    ensures WellFormed(g) ==> WellFormed(AddPost(dist, g, p))
    ensures NoPolygons(g) ==> NoPolygons(AddPost(dist, g, p))
  {
  }

  /** A post lands in an existing cluster only when it is strictly within the
      radius of it, no other cluster is strictly closer, and every earlier
      cluster is strictly farther; otherwise it founds a new last cluster. */
  lemma AddPostChoice(dist: Distance, g: Group, p: Doc)
    ensures var r := AddPost(dist, g, p);
      |r| == |g| ==>
        exists k :: 0 <= k < |g| && r[k].posts == g[k].posts + [p]
          && PC.ComputeDistance(dist, g[k], Position(p)) < ClusterRadius
          && (forall j :: 0 <= j < |g| && PC.ComputeDistance(dist, g[j], Position(p)) < ClusterRadius ==>
                PC.ComputeDistance(dist, g[k], Position(p)) <= PC.ComputeDistance(dist, g[j], Position(p)))
          && (forall j :: 0 <= j < k && PC.ComputeDistance(dist, g[j], Position(p)) < ClusterRadius ==>
                PC.ComputeDistance(dist, g[k], Position(p)) < PC.ComputeDistance(dist, g[j], Position(p)))
    ensures var r := AddPost(dist, g, p);
      |r| == |g| + 1 <==> forall j :: 0 <= j < |g| ==> PC.ComputeDistance(dist, g[j], Position(p)) >= ClusterRadius
  {
    var t := Target(dist, g, p);
    if t.Some? {
      var ds := Distances(dist, g, Position(p));
      var k := t.value;
      assert IsNearest(ds, |g|, k);
      assert AddPost(dist, g, p)[k].posts == g[k].posts + [p];
    }
  }

  // ---------------------------------------------------------------------
  // Building a group from a list of posts

  /** Posts added one at a time, in list order, to a fresh group. */
  function ClusterAll(dist: Distance, ps: seq<Doc>): (g: Group)
    ensures WellFormed(g)
    ensures Members(g) == multiset(ps)
    ensures |g| <= |ps|
    ensures NoPolygons(g)
    decreases |ps|
  {
    if |ps| == 0 then Empty()
    else
      var n := |ps|;
      assert ps == ps[..n - 1] + [ps[n - 1]];
      AddPostKeepsShape(dist, ClusterAll(dist, ps[..n - 1]), ps[n - 1]);
      AddPost(dist, ClusterAll(dist, ps[..n - 1]), ps[n - 1])
  }

  /** The first cluster is seeded by the first post. */
  lemma {:induction false} ClusterAllFirst(dist: Distance, ps: seq<Doc>)
    requires |ps| > 0
    ensures var g := ClusterAll(dist, ps);
      |g| > 0 && g[0].posts[0] == ps[0]
    decreases |ps|
  {
    var n := |ps|;
    var g := ClusterAll(dist, ps[..n - 1]);
    var r := AddPost(dist, g, ps[n - 1]);
    assert ClusterAll(dist, ps) == r;
    if n == 1 {
      assert g == [];
    } else {
      ClusterAllFirst(dist, ps[..n - 1]);
      assert g[0].posts[0] == ps[..n - 1][0] == ps[0];
      assert r[0] == g[0] || r[0] == PC.AddPost(g[0], ps[n - 1]);
    }
  }

  /** A post is in some cluster exactly when it is in the input; with the
      member count of `ClusterAll`, nothing is lost and nothing duplicated. */
  lemma PartitionComplete(dist: Distance, ps: seq<Doc>, p: Doc)
    ensures p in ps <==> InSomeCluster(ClusterAll(dist, ps), p)
  {
    var g := ClusterAll(dist, ps);
    MembersContains(g, p);
    assert p in ps <==> p in Members(g);
  }

  /** Some cluster of `g` has `p` as a member. */
  ghost predicate InSomeCluster(g: Group, p: Doc)
  {
    exists j, i :: 0 <= j < |g| && 0 <= i < |g[j].posts| && g[j].posts[i] == p
  }

  lemma {:induction false} MembersContains(g: Group, p: Doc)
    ensures p in Members(g) <==> InSomeCluster(g, p)
    decreases |g|
  {
    if |g| > 0 {
      var n := |g|;
      MembersContains(g[..n - 1], p);
      if p in multiset(g[n - 1].posts) {
        var i :| 0 <= i < |g[n - 1].posts| && g[n - 1].posts[i] == p;
        assert g[n - 1].posts[i] == p;
      }
      if exists j, i :: 0 <= j < n && 0 <= i < |g[j].posts| && g[j].posts[i] == p {
        var j, i :| 0 <= j < n && 0 <= i < |g[j].posts| && g[j].posts[i] == p;
        if j < n - 1 {
          assert g[..n - 1][j].posts[i] == p;
        } else {
          assert p in multiset(g[n - 1].posts);
        }
      }
    }
  }

  // ---------------------------------------------------------------------
  // Polygons and resource release

  datatype PolygonPass = PolygonPass(clusters: Group, polygons: seq<seq<PC.Vertex>>)

  /** Each cluster's polygon slot, in cluster order. */
  function PolygonSlots(g: Group): (slots: seq<Option<seq<PC.Vertex>>>)
    ensures |slots| == |g|
    ensures forall j :: 0 <= j < |g| ==> slots[j] == g[j].polygon
  {
    seq(|g|, j requires 0 <= j < |g| => g[j].polygon)
  }

  /** `generatePolygons`: each cluster rebuilds its polygon; the present
      polygons are collected in cluster order. */
  function GeneratePolygons(g: Group, hull: PC.Hull): (r: PolygonPass)
    ensures |r.clusters| == |g|
    ensures forall j :: 0 <= j < |g| ==> r.clusters[j] == PC.GeneratePolygon(g[j], hull)
    ensures |r.polygons| <= |g|
    ensures var idx := SomeIndices(PolygonSlots(r.clusters));
      && |idx| == |r.polygons|
      && (forall i, i' :: 0 <= i < i' < |idx| ==> idx[i] < idx[i'])
      && (forall i :: 0 <= i < |idx| ==> idx[i] < |g| && r.clusters[idx[i]].polygon == Some(r.polygons[i]))
      && (forall j :: 0 <= j < |g| && r.clusters[j].polygon.Some? ==> j in idx)
  {
    var clusters := seq(|g|, j requires 0 <= j < |g| => PC.GeneratePolygon(g[j], hull));
    var slots := PolygonSlots(clusters);
    assert forall j :: 0 <= j < |g| && slots[j].Some? ==> j in SomeIndices(slots) by {
      forall j | 0 <= j < |g| && slots[j].Some?
        ensures j in SomeIndices(slots)
      {
        SomeIndicesComplete(slots, j);
      }
    }
    PolygonPass(clusters, Somes(slots))
  }

  /** Only clusters with at least three members can contribute a polygon. */
  lemma PolygonsNeedThreeMembers(g: Group, hull: PC.Hull)
    requires forall j :: 0 <= j < |g| ==> |g[j].posts| < PC.MinPolygonPosts
    ensures GeneratePolygons(g, hull).polygons == []
  {
    var r := GeneratePolygons(g, hull);
    assert forall j :: 0 <= j < |g| ==> PolygonSlots(r.clusters)[j].None?;
  }

  datatype GroupRelease = GroupRelease(clusters: Group, removals: seq<PC.Removal>)

  /** `removeMapResources`: every cluster releases its resources, in order. */
  function RemoveMapResources(g: Group): (r: GroupRelease)
    ensures |r.clusters| == |g|
    ensures forall j :: 0 <= j < |g| ==> r.clusters[j] == PC.RemoveMapResources(g[j]).cluster
    decreases |g|
  {
    if |g| == 0 then GroupRelease([], [])
    else
      var n := |g|;
      var front := RemoveMapResources(g[..n - 1]);
      var last := PC.RemoveMapResources(g[n - 1]);
      var clusters := front.clusters + [last.cluster];
      assert forall j :: 0 <= j < n - 1 ==> clusters[j] == front.clusters[j] && g[..n - 1][j] == g[j];
      GroupRelease(clusters, front.removals + last.removals)
  }

  /** One request is made per member and one per polygon held, nothing
      more. */
  lemma {:induction false} ReleaseCount(g: Group)
    ensures |RemoveMapResources(g).removals| == |Members(g)| + |Somes(PolygonSlots(g))|
    decreases |g|
  {
    if |g| > 0 {
      var n := |g|;
      ReleaseSnoc(g);
      ReleaseCount(g[..n - 1]);
      PolygonCountSnoc(g);
      assert |Members(g)| == |Members(g[..n - 1])| + |g[n - 1].posts|;
    }
  }

  lemma PolygonCountSnoc(g: Group)
    requires |g| > 0
    ensures |Somes(PolygonSlots(g))|
      == |Somes(PolygonSlots(g[..|g| - 1]))| + (if g[|g| - 1].polygon.Some? then 1 else 0)
  {
    var slots := PolygonSlots(g);
    assert slots[..|g| - 1] == PolygonSlots(g[..|g| - 1]);
  }

  /** Releasing a group is releasing its front part and then its back part:
      the requests follow cluster order. */
  lemma {:induction false} ReleaseSplits(a: Group, b: Group)
    ensures RemoveMapResources(a + b).removals
      == RemoveMapResources(a).removals + RemoveMapResources(b).removals
    decreases |b|
  {
    if |b| == 0 {
      assert a + b == a;
    } else {
      var front := b[..|b| - 1];
      var last := b[|b| - 1];
      var ab := a + b;
      assert ab[..|ab| - 1] == a + front;
      assert ab[|ab| - 1] == last;
      ReleaseSnoc(ab);
      ReleaseSnoc(b);
      ReleaseSplits(a, front);
      var ra, rf, rl := RemoveMapResources(a).removals, RemoveMapResources(front).removals,
        PC.RemoveMapResources(last).removals;
      assert RemoveMapResources(ab).removals == (ra + rf) + rl;
      assert RemoveMapResources(b).removals == rf + rl;
      ConcatAssoc(ra, rf, rl);
    }
  }

  lemma SplitAround<T>(s: seq<T>, j: nat)
    requires j < |s|
    ensures s == (s[..j] + [s[j]]) + s[j + 1..]
  {
  }

  lemma ConcatAssoc<T>(x: seq<T>, y: seq<T>, z: seq<T>)
    ensures (x + y) + z == x + (y + z)
  {
  }

  lemma ReleaseSnoc(g: Group)
    requires |g| > 0
    ensures RemoveMapResources(g).removals
      == RemoveMapResources(g[..|g| - 1]).removals + PC.RemoveMapResources(g[|g| - 1]).removals
  {
  }

  /** Cluster `j`'s requests (its polygon first, then its markers) sit
      between those of the clusters before it and those after it, so every
      polygon held is removed. */
  lemma ReleaseInOrder(g: Group, j: nat)
    requires j < |g|
    ensures var rs := RemoveMapResources(g).removals;
      && rs == RemoveMapResources(g[..j]).removals + PC.RemoveMapResources(g[j]).removals
        + RemoveMapResources(g[j + 1..]).removals
      && (g[j].polygon.Some? ==> PC.PolygonRemoved(g[j].polygon.value) in rs)
  {
    var before, mid, after := g[..j], [g[j]], g[j + 1..];
    SplitAround(g, j);
    ReleaseSplits(before + mid, after);
    ReleaseSplits(before, mid);
    assert mid[..0] == [];
    ReleaseSnoc(mid);
    var rb, rm, ra := RemoveMapResources(before).removals, PC.RemoveMapResources(g[j]).removals,
      RemoveMapResources(after).removals;
    assert RemoveMapResources(mid).removals == rm;
    var rs := RemoveMapResources(g).removals;
    assert rs == rb + rm + ra;
    if g[j].polygon.Some? {
      assert rs[|rb|] == rm[0];
    }
  }

  /** Every member of every cluster is asked to remove its marker. */
  lemma {:induction false} ReleaseCoversMembers(g: Group, p: Doc)
    requires p in Members(g)
    ensures PC.MarkerRemovalRequested(p) in RemoveMapResources(g).removals
    decreases |g|
  {
    var n := |g|;
    var init := g[..n - 1];
    var front := RemoveMapResources(init);
    var last := PC.RemoveMapResources(g[n - 1]);
    assert RemoveMapResources(g).removals == front.removals + last.removals;
    if p in Members(init) {
      ReleaseCoversMembers(init, p);
    } else {
      assert p in multiset(g[n - 1].posts);
      LastClusterMarkers(g[n - 1], p);
    }
  }

  lemma LastClusterMarkers(c: PC.Cluster, p: Doc)
    requires p in c.posts
    ensures PC.MarkerRemovalRequested(p) in PC.RemoveMapResources(c).removals
  {
    var rs := PC.RemoveMapResources(c).removals;
    var i :| 0 <= i < |c.posts| && c.posts[i] == p;
    var tail := rs[|rs| - |c.posts|..];
    assert tail[i] == PC.MarkerRemovalRequested(p);
    assert rs[|rs| - |c.posts| + i] == tail[i];
  }

  // ---------------------------------------------------------------------
  // Consequences for whole lists

  /** `pos[j][i]` is the index in `ps` of the `i`-th post of cluster `j`:
      each cluster's posts appear in `ps` in the same relative order, and the
      clusters are listed in the order their seeds appear in `ps`. */
  ghost predicate Placement(g: Group, ps: seq<Doc>, pos: seq<seq<nat>>)
  {
    && |pos| == |g|
    && (forall j :: 0 <= j < |g| ==> 0 < |pos[j]| == |g[j].posts|)
    && (forall j, i :: 0 <= j < |g| && 0 <= i < |pos[j]| ==> pos[j][i] < |ps| && ps[pos[j][i]] == g[j].posts[i])
    && (forall j, i, i' :: 0 <= j < |g| && 0 <= i < i' < |pos[j]| ==> pos[j][i] < pos[j][i'])
    && (forall j, j' :: 0 <= j < j' < |g| ==> pos[j][0] < pos[j'][0])
  }

  /** Clustering keeps the order of the input: within each cluster the posts
      keep their order in `ps`, and the seeds sit at strictly increasing
      positions of `ps`. */
  lemma {:induction false} ClusterAllInOrder(dist: Distance, ps: seq<Doc>)
    ensures exists pos :: Placement(ClusterAll(dist, ps), ps, pos)
    decreases |ps|
  {
    if |ps| == 0 {
      assert Placement(ClusterAll(dist, ps), ps, []);
    } else {
      var n := |ps| - 1;
      var init, p := ps[..n], ps[n];
      assert init + [p] == ps;
      ClusterAllInOrder(dist, init);
      var g := ClusterAll(dist, init);
      var pos :| Placement(g, init, pos);
      ClusterAllSnoc(dist, init, p);
      assert ClusterAll(dist, ps) == AddPost(dist, g, p);
      var pos' := PlacementAddPost(dist, g, init, pos, p);
    }
  }

  /** The placement after one more post: the post's index is appended to the
      cluster it joins, or starts a new entry. */
  lemma PlacementAddPost(dist: Distance, g: Group, ps: seq<Doc>, pos: seq<seq<nat>>, p: Doc)
    returns (pos': seq<seq<nat>>)
    requires Placement(g, ps, pos)
    ensures Placement(AddPost(dist, g, p), ps + [p], pos')
  {
    match Target(dist, g, p)
    case None =>
      PlacementNewCluster(g, ps, pos, p);
      pos' := pos + [[|ps|]];
    case Some(k) =>
      PlacementJoin(g, ps, pos, k, p);
      pos' := pos[k := pos[k] + [|ps|]];
  }

  lemma PlacementNewCluster(g: Group, ps: seq<Doc>, pos: seq<seq<nat>>, p: Doc)
    requires Placement(g, ps, pos)
    ensures Placement(g + [PC.New(p)], ps + [p], pos + [[|ps|]])
  {
    var g', ps', pos' := g + [PC.New(p)], ps + [p], pos + [[|ps|]];
    forall j, i | 0 <= j < |g'| && 0 <= i < |pos'[j]|
      ensures pos'[j][i] < |ps'| && ps'[pos'[j][i]] == g'[j].posts[i]
    {
      if j < |g| {
        assert pos'[j] == pos[j] && g'[j] == g[j];
      }
    }
  }

  lemma PlacementJoin(g: Group, ps: seq<Doc>, pos: seq<seq<nat>>, k: nat, p: Doc)
    requires Placement(g, ps, pos) && k < |g|
    ensures Placement(g[k := PC.AddPost(g[k], p)], ps + [p], pos[k := pos[k] + [|ps|]])
  {
    var g', ps', pos' := g[k := PC.AddPost(g[k], p)], ps + [p], pos[k := pos[k] + [|ps|]];
    assert g'[k].posts == g[k].posts + [p];
    forall j, i | 0 <= j < |g'| && 0 <= i < |pos'[j]|
      ensures pos'[j][i] < |ps'| && ps'[pos'[j][i]] == g'[j].posts[i]
    {
      if j != k || i < |pos[k]| {
        assert pos'[j][i] == pos[j][i] && g'[j].posts[i] == g[j].posts[i];
      }
    }
    forall j, i, i' | 0 <= j < |g'| && 0 <= i < i' < |pos'[j]|
      ensures pos'[j][i] < pos'[j][i']
    {
      if j == k && i' == |pos[k]| {
        assert pos'[j][i] == pos[k][i] < |ps|;
      }
    }
    forall j | 0 <= j < |g'|
      ensures pos'[j][0] == pos[j][0]
    {
    }
  }

  /** A post at least the radius away from every cluster built so far is
      appended as a new cluster, after all the others. */
  lemma ClusterAllFar(dist: Distance, ps: seq<Doc>, p: Doc)
    requires var g := ClusterAll(dist, ps);
      forall j :: 0 <= j < |g| ==> PC.ComputeDistance(dist, g[j], Position(p)) >= ClusterRadius
    ensures ClusterAll(dist, ps + [p]) == ClusterAll(dist, ps) + [PC.New(p)]
  {
    ClusterAllSnoc(dist, ps, p);
    FarPostStartsCluster(dist, ClusterAll(dist, ps), p);
  }

  lemma FarPostStartsCluster(dist: Distance, g: Group, p: Doc)
    requires forall j :: 0 <= j < |g| ==> PC.ComputeDistance(dist, g[j], Position(p)) >= ClusterRadius
    ensures AddPost(dist, g, p) == g + [PC.New(p)]
  {
  }

  lemma ClusterAllSnoc(dist: Distance, ps: seq<Doc>, p: Doc)
    ensures ClusterAll(dist, ps + [p]) == AddPost(dist, ClusterAll(dist, ps), p)
  {
    assert (ps + [p])[..|ps|] == ps;
  }

  /** A one-post list gives one cluster seeded by that post. */
  lemma ClusterAllOne(dist: Distance, a: Doc)
    ensures ClusterAll(dist, [a]) == [PC.New(a)]
  {
    assert [a][..0] == [];
    FarPostStartsCluster(dist, [], a);
  }

  /** With a single cluster, a post within the radius of it joins it. */
  lemma NearPostJoins(dist: Distance, c: PC.Cluster, p: Doc)
    requires PC.ComputeDistance(dist, c, Position(p)) < ClusterRadius
    ensures AddPost(dist, [c], p) == [PC.AddPost(c, p)]
  {
    assert Target(dist, [c], p) == Some(0);
  }

  lemma TwoPostExample(dist: Distance, a: Doc, b: Doc)
    requires dist(Position(b), Position(a)) < ClusterRadius
    ensures ClusterAll(dist, [a, b]) == [PC.Cluster([a, b], Position(a), None)]
  {
    ClusterAllOne(dist, a);
    ClusterAllSnoc(dist, [a], b);
    assert [a] + [b] == [a, b];
    NearPostJoins(dist, PC.New(a), b);
    assert PC.AddPost(PC.New(a), b).posts == [a, b];
  }
}

=== FILE: docs.dfy ===
/** The stored post document and the coordinates read from it. */
module Docs {
  import opened Options

  type PostId = nat

  /** A row of the `posts` table as the client sees it.  The embedding and
      the geohash are carried by the store but play no part in the model. */
  datatype Doc = Doc(
    id: PostId,
    text: string,
    lat: real,
    lng: real,
    altitude: real,
    photoId: Option<string>,
    relatedUrl: Option<string>,
    tag: Option<string>)

  /** A `{lat, lng}` coordinate. */
  datatype LatLng = LatLng(lat: real, lng: real)

  /** `{lat: post.lat(), lng: post.lng()}`: the accessors of a map post. */
  function Position(d: Doc): LatLng
  {
    LatLng(d.lat, d.lng)
  }

  /** Great-circle distance in metres, supplied by a geodesy library whose
      internals are not modelled: any function of two coordinates. */
  type Distance = (LatLng, LatLng) -> real
}

=== FILE: fly_through.dfy ===
/** The "Fly Through" tour: a chain of camera legs over the first few search
    results, each leg preceded by a pause and ending by showing its post. */
module FlyThrough {
  import opened Options
  import opened Docs
  import Cam = Camera

  /** At most this many posts are toured. */
  const MaxWaypoints: nat := 5
  /** Delay before each leg starts, in milliseconds. */
  const PauseMS: int := 3000
  /** Duration of each leg's camera interpolation, in milliseconds. */
  const LegDurationMS: int := 3000
  /** Camera range at each waypoint. */
  const WaypointRange: real := 1000.0

  /** The button is enabled when no tour is flying and there are posts. */
  predicate CanStart(flying: bool, posts: seq<Doc>)
  {
    !flying && |posts| > 0
  }

  /** `posts.slice(0, Math.min(5, posts.length))`. */
  function Waypoints(posts: seq<Doc>): (w: seq<Doc>)
    ensures |w| <= MaxWaypoints && |w| <= |posts|
    ensures |w| == MaxWaypoints || |w| == |posts|
    ensures w == posts[..|w|]
  {
    if |posts| < MaxWaypoints then posts else posts[..MaxWaypoints]
  }

  /** One closure made by `createFlyThroughWaypoint`: the post it flies to,
      and whether its completion clears `flying` (instead of building the
      next closure from the rest of the list). */
  datatype Leg = Leg(post: Doc, last: bool)

  /** The chain of closures for a list of posts. */
  function Chain(posts: seq<Doc>): (legs: seq<Leg>)
    requires |posts| > 0
    ensures |legs| == |posts|
    ensures forall i :: 0 <= i < |posts| ==> legs[i].post == posts[i]
    ensures forall i :: 0 <= i < |posts| ==> (legs[i].last <==> i == |posts| - 1)
    decreases |posts|
  {
    if |posts| == 1 then [Leg(posts[0], true)]
    else [Leg(posts[0], false)] + Chain(posts[1..])
  }

  /** Where each leg sends the camera. */
  function LegTarget(p: Doc): Cam.CameraState
  {
    Cam.CameraState(p.lat, p.lng, WaypointRange)
  }

  /** Waiting for the timeout of leg `leg`, due at `dueAt`; or animating it. */
  datatype Phase =
    | Pausing(leg: nat, dueAt: int)
    | Flying(leg: nat, anim: Cam.Interpolation)
    | Finished

  /** The tour together with the parts of the page it drives: the live camera,
      the post shown in the detail panel, the `flying` flag, and the posts
      shown at the end of each leg so far. */
  datatype Tour = Tour(
    legs: seq<Leg>,
    phase: Phase,
    camera: Cam.CameraState,
    selected: Option<Doc>,
    flying: bool,
    shown: seq<Doc>)

  /** The pending timeout fires, or the running interval ticks. */
  datatype Event = TimerFired(now: int) | Tick(now: int)

  /** Reachable tours: legs follow the closure chain, the posts shown so far
      are the first legs' posts in order, and the phase agrees with them. */
  ghost predicate Inv(t: Tour)
  {
    && 0 < |t.legs| <= MaxWaypoints
    && (forall i :: 0 <= i < |t.legs| ==> (t.legs[i].last <==> i == |t.legs| - 1))
    && |t.shown| <= |t.legs|
    && (forall i :: 0 <= i < |t.shown| ==> t.shown[i] == t.legs[i].post)
    && match t.phase
       case Pausing(i, _) => i == |t.shown| < |t.legs| && t.flying
       case Flying(i, a) =>
         && i == |t.shown| < |t.legs| && t.flying
         && Cam.Valid(a) && a.running && a.hasCallback
         && a.end == LegTarget(t.legs[i].post)
       case Finished => |t.shown| == |t.legs| && !t.flying
  }

  /** Pressing the button at time `now`: nothing when it is disabled,
      otherwise a tour over the first posts, waiting for its first leg. */
  function Start(posts: seq<Doc>, flying: bool, camera: Cam.CameraState, selected: Option<Doc>, now: int): (t: Option<Tour>)
    ensures t.Some? <==> CanStart(flying, posts)
    ensures t.Some? ==>
      && Inv(t.value)
      && t.value.flying && t.value.shown == []
      && t.value.camera == camera && t.value.selected == selected
      && t.value.phase == Pausing(0, now + PauseMS)
      && |t.value.legs| == |Waypoints(posts)|
      && forall i :: 0 <= i < |t.value.legs| ==> t.value.legs[i].post == posts[i]
  {
    if !CanStart(flying, posts) then None
    else Some(Tour(Chain(Waypoints(posts)), Pausing(0, now + PauseMS), camera, selected, true, []))
  }

  /** The camera after `onUpdate` has been called with each update in turn. */
  function ApplyUpdates(camera: Cam.CameraState, outs: seq<Cam.Output>): Cam.CameraState
    decreases |outs|
  {
    if |outs| == 0 then camera
    else
      var next := if outs[0].Update? then outs[0].camera else camera;
      ApplyUpdates(next, outs[1..])
  }

  /** One event. */
  function Step(t: Tour, e: Event): (r: Tour)
    requires Inv(t)
    ensures Inv(r)
    ensures r.legs == t.legs
    ensures t.shown <= r.shown && |r.shown| <= |t.shown| + 1
    ensures t.phase.Finished? ==> r == t
    ensures t.flying && !r.flying ==> t.phase.Flying? && t.legs[t.phase.leg].last
    ensures |r.shown| == |t.shown| + 1 ==>
      t.phase.Flying? && r.selected == Some(t.legs[t.phase.leg].post) &&
      r.camera == LegTarget(t.legs[t.phase.leg].post)
    ensures t.phase.Pausing? && r.phase.Flying? ==>
      && r.selected.None?
      && r.phase.anim.start == t.camera
      && r.phase.anim.endTime - r.phase.anim.startTime == LegDurationMS
    ensures t.phase.Pausing? && e.TimerFired? && e.now >= t.phase.dueAt ==>
      && r.phase.Flying? && r.phase.leg == t.phase.leg && r.phase.anim.startTime == e.now
      && r.phase.anim.running && r.phase.anim.end == LegTarget(t.legs[t.phase.leg].post)
    ensures t.phase.Flying? && e.Tick? && e.now > t.phase.anim.endTime ==> |r.shown| == |t.shown| + 1
    ensures t.phase.Flying? && |r.shown| == |t.shown| + 1 ==>
      r.phase == (if t.legs[t.phase.leg].last then Finished else Pausing(t.phase.leg + 1, e.now + PauseMS))
    ensures t.phase.Pausing? && !(e.TimerFired? && e.now >= t.phase.dueAt) ==> r == t
  {
    match t.phase
    case Pausing(i, dueAt) =>
      if e.TimerFired? && e.now >= dueAt then
        var anim := Cam.Begin(t.camera, LegTarget(t.legs[i].post), LegDurationMS, e.now, true);
        t.(selected := None, phase := Flying(i, anim))
      else t
    case Flying(i, anim) =>
      if e.Tick? then
        var ticked := Cam.Tick(anim, e.now);
        var camera := ApplyUpdates(t.camera, ticked.outputs);
        if ticked.next.running then
          t.(camera := camera, phase := Flying(i, ticked.next))
        else
          var leg := t.legs[i];
          assert camera == LegTarget(leg.post) by {
            var outs := ticked.outputs;
            assert outs == [Cam.Update(anim.end), Cam.Callback];
            assert outs[1..][1..] == [];
            assert ApplyUpdates(anim.end, outs[1..][1..]) == anim.end;
            assert ApplyUpdates(anim.end, outs[1..]) == anim.end;
          }
          var shown := t.shown + [leg.post];
          if leg.last then
            t.(camera := camera, selected := Some(leg.post), shown := shown, flying := false, phase := Finished)
          else
            t.(camera := camera, selected := Some(leg.post), shown := shown, phase := Pausing(i + 1, e.now + PauseMS))
      else t
    case Finished => t
  }

  /** The flag is cleared exactly when every leg has shown its post. */
  lemma FlyingUntilLastLeg(t: Tour)
    requires Inv(t)
    ensures !t.flying <==> t.phase.Finished?
    ensures !t.flying <==> |t.shown| == |t.legs|
    ensures |t.shown| <= MaxWaypoints
  {
  }

  /** Events applied in order. */
  function RunEvents(t: Tour, es: seq<Event>): (r: Tour)
    requires Inv(t)
    ensures Inv(r) && r.legs == t.legs && t.shown <= r.shown
    decreases |es|
  {
    if |es| == 0 then t else RunEvents(Step(t, es[0]), es[1..])
  }

  /** A timeout at its due time and a tick just past the leg's end time,
      once for each remaining leg. */
  function Schedule(k: nat, dueAt: int): seq<Event>
    decreases k
  {
    if k == 0 then []
    else
      var arrive := dueAt + LegDurationMS + 1;
      [TimerFired(dueAt), Tick(arrive)] + Schedule(k - 1, arrive + PauseMS)
  }

  /** A timely schedule carries a waiting tour through all its remaining
      legs: every leg's post is shown, in order, and the flag is cleared. */
  lemma {:induction false} TourCompletes(t: Tour)
    requires Inv(t) && t.phase.Pausing?
    ensures var r := RunEvents(t, Schedule(|t.legs| - |t.shown|, t.phase.dueAt));
      && r.phase.Finished? && !r.flying
      && |r.shown| == |t.legs|
      && forall i :: 0 <= i < |t.legs| ==> r.shown[i] == t.legs[i].post
    decreases |t.legs| - |t.shown|
  {
    var i := t.phase.leg;
    var dueAt := t.phase.dueAt;
    var arrive := dueAt + LegDurationMS + 1;
    var es := Schedule(|t.legs| - |t.shown|, dueAt);
    var rest := Schedule(|t.legs| - |t.shown| - 1, arrive + PauseMS);
    assert es == [TimerFired(dueAt), Tick(arrive)] + rest;
    var t1 := Step(t, TimerFired(dueAt));
    assert t1.phase.Flying? && t1.phase.anim.endTime == dueAt + LegDurationMS;
    var t2 := Step(t1, Tick(arrive));
    assert |t2.shown| == |t.shown| + 1;
    assert RunEvents(t, es) == RunEvents(t2, rest) by {
      assert es[1..] == [Tick(arrive)] + rest;
      assert es[1..][1..] == rest;
    }
    if t.legs[i].last {
      assert t2.phase.Finished?;
      assert rest == [];
    } else {
      assert t2.phase == Pausing(i + 1, arrive + PauseMS);
      TourCompletes(t2);
    }
  }

  /** Pressing the button and following the timely schedule shows the first
      `min(5, n)` posts, each once, in list order, then clears `flying`. */
  lemma TourShowsWaypointsInOrder(posts: seq<Doc>, camera: Cam.CameraState, selected: Option<Doc>, now: int)
    requires |posts| > 0
    ensures var t := Start(posts, false, camera, selected, now).value;
      var r := RunEvents(t, Schedule(|t.legs|, now + PauseMS));
      r.shown == Waypoints(posts) && !r.flying
  {
    var t := Start(posts, false, camera, selected, now).value;
    TourCompletes(t);
  }
}

=== FILE: options.dfy ===
/** Optional values and the order-preserving "keep the present ones" filter
    that both the polygon collection and the backend document lookup use. */
module Options {

  /** `undefined`/`null` on the TypeScript side. */
  datatype Option<+T> = None | Some(value: T)

  /** The present values of `xs`, in their original order. */
  function Somes<T>(xs: seq<Option<T>>): (r: seq<T>)
    ensures |r| <= |xs|
    ensures |r| == |xs| <==> forall i :: 0 <= i < |xs| ==> xs[i].Some?
    ensures |r| == |xs| ==> forall i :: 0 <= i < |xs| ==> xs[i] == Some(r[i])
    ensures (forall i :: 0 <= i < |xs| ==> xs[i].None?) ==> r == []
  {
    if |xs| == 0 then []
    else
      var front := Somes(xs[..|xs| - 1]);
      var last := xs[|xs| - 1];
      assert forall i :: 0 <= i < |xs| - 1 ==> xs[..|xs| - 1][i] == xs[i];
      if last.Some? then front + [last.value] else front
  }

  /** Indices of the present entries of `xs`, in increasing order. */
  function SomeIndices<T>(xs: seq<Option<T>>): (idx: seq<nat>)
    ensures |idx| == |Somes(xs)|
    ensures forall i :: 0 <= i < |idx| ==> idx[i] < |xs| && xs[idx[i]] == Some(Somes(xs)[i])
    ensures forall i, j :: 0 <= i < j < |idx| ==> idx[i] < idx[j]
  {
    if |xs| == 0 then []
    else
      var n := |xs| - 1;
      var init := xs[..n];
      var front := SomeIndices(init);
      assert forall i :: 0 <= i < n ==> init[i] == xs[i];
      if xs[n].Some? then
        assert Somes(xs) == Somes(init) + [xs[n].value];
        front + [n]
      else
        assert Somes(xs) == Somes(init);
        front
  }

  /** No present entry is skipped. */
  lemma {:induction false} SomeIndicesComplete<T>(xs: seq<Option<T>>, k: nat)
    requires k < |xs| && xs[k].Some?
    ensures k in SomeIndices(xs)
    decreases |xs|
  {
    var n := |xs| - 1;
    var init := xs[..n];
    var front := SomeIndices(init);
    if k < n {
      assert init[k] == xs[k];
      SomeIndicesComplete(init, k);
      var j :| 0 <= j < |front| && front[j] == k;
      assert SomeIndices(xs)[j] == k by {
        if xs[n].Some? {
          assert SomeIndices(xs) == front + [n];
        } else {
          assert SomeIndices(xs) == front;
        }
      }
    } else {
      assert SomeIndices(xs) == front + [n];
      assert SomeIndices(xs)[|front|] == k;
    }
  }

  /** Every value kept by `Somes` comes from some present entry. */
  lemma SomesFromEntries<T>(xs: seq<Option<T>>, i: nat)
    requires i < |Somes(xs)|
    ensures exists k :: 0 <= k < |xs| && xs[k] == Some(Somes(xs)[i])
  {
    var idx := SomeIndices(xs);
    assert xs[idx[i]] == Some(Somes(xs)[i]);
  }
}

=== FILE: post_form.dfy ===
/** The "new post" form: its validation, the arguments it sends to
    `createPost`, and the tag toggle. */
module PostForm {
  import opened Options

  const NoTextError: string := "Please provide some text for the post"
  const BadUrlError: string := "The provided url is invalid"

  /** The device position; each part stays `null` until geolocation answers. */
  datatype Location = Location(latitude: Option<real>, longitude: Option<real>, altitude: Option<real>)

  /** The form's state: typed text, URL and tag (empty when unset), position,
      whether a photo file is chosen, and the error shown. */
  datatype Form = Form(
    text: string,
    relatedUrl: string,
    selectedTag: string,
    location: Location,
    hasFile: bool,
    error: Option<string>)

  /** What is passed to `createPost`. */
  datatype PostArgs = PostArgs(
    text: string,
    lat: real,
    lng: real,
    altitude: real,
    relatedUrl: Option<string>,
    tag: Option<string>,
    photoId: Option<string>)

  /** What a submission does beyond changing the form. */
  datatype Effect = UploadPhoto | MakePost(args: PostArgs) | HideModal

  datatype Submitted = Submitted(form: Form, effects: seq<Effect>)

  /** The Send button is enabled once a latitude is known. */
  predicate SendEnabled(f: Form)
  {
    f.location.latitude.Some?
  }

  /** `x ?? 0`. */
  function OrZero(x: Option<real>): (r: real)
    ensures x.Some? ==> r == x.value
    ensures x.None? ==> r == 0.0
  {
    if x.Some? then x.value else 0.0
  }

  /** A field is only sent when it is not empty. */
  function Present(s: string): (r: Option<string>)
    ensures r.Some? <==> s != ""
    ensures r.Some? ==> r.value == s
  {
    if s == "" then None else Some(s)
  }

  /** The submission passes both checks: some text, and a related URL that
      is either empty or parses. */
  predicate Accepted(f: Form, validUrl: string -> bool)
  {
    f.text != "" && (f.relatedUrl == "" || validUrl(f.relatedUrl))
  }

  function CountPosts(es: seq<Effect>): nat
  {
    if |es| == 0 then 0 else (if es[0].MakePost? then 1 else 0) + CountPosts(es[1..])
  }

  /** `handleSubmitPost`. `validUrl` is what `new URL` accepts; `storageId`
      is what the photo upload answers. */
  function HandleSubmitPost(f: Form, validUrl: string -> bool, storageId: string): (r: Submitted)
    ensures f.text == "" ==> r == Submitted(f.(error := Some(NoTextError)), [])
    ensures f.text != "" && f.relatedUrl != "" && !validUrl(f.relatedUrl) ==>
      r == Submitted(f.(error := Some(BadUrlError)), [])
    ensures Accepted(f, validUrl) ==>
      && r.form == f
      && |r.effects| == (if f.hasFile then 3 else 2)
      && r.effects[|r.effects| - 1] == HideModal
      && r.effects[|r.effects| - 2].MakePost?
      && (r.effects[0] == UploadPhoto <==> f.hasFile)
    ensures CountPosts(r.effects) == (if Accepted(f, validUrl) then 1 else 0)
  {
    if f.text == "" then
      Submitted(f.(error := Some(NoTextError)), [])
    else if f.relatedUrl != "" && !validUrl(f.relatedUrl) then
      Submitted(f.(error := Some(BadUrlError)), [])
    else
      var loc := f.location;
      var args := PostArgs(f.text, OrZero(loc.latitude), OrZero(loc.longitude), OrZero(loc.altitude),
        Present(f.relatedUrl), Present(f.selectedTag), if f.hasFile then Some(storageId) else None);
      var effects := (if f.hasFile then [UploadPhoto] else []) + [MakePost(args), HideModal];
      assert CountPosts(effects) == 1 by {
        CountPostsAppend(if f.hasFile then [UploadPhoto] else [], [MakePost(args), HideModal]);
        assert CountPosts([HideModal]) == 0;
        assert [MakePost(args), HideModal][1..] == [HideModal];
      }
      Submitted(f, effects)
  }

  lemma {:induction false} CountPostsAppend(a: seq<Effect>, b: seq<Effect>)
    ensures CountPosts(a + b) == CountPosts(a) + CountPosts(b)
    decreases |a|
  {
    if |a| == 0 {
      assert a + b == b;
    } else {
      assert (a + b)[0] == a[0];
      assert (a + b)[1..] == a[1..] + b;
      CountPostsAppend(a[1..], b);
    }
  }

  /** The post sent, when one is. */
  function SentArgs(r: Submitted): (args: Option<PostArgs>)
    ensures args.Some? ==> MakePost(args.value) in r.effects
  {
    if |r.effects| >= 2 && r.effects[|r.effects| - 2].MakePost? then Some(r.effects[|r.effects| - 2].args)
    else None
  }

  /** What reaches `createPost` agrees with the form: the text as typed,
      missing coordinates as 0, the URL and tag only when given, a URL only
      when it parses, and a photo id exactly when a file was chosen. */
  lemma SentArgsFollowForm(f: Form, validUrl: string -> bool, storageId: string)
    requires Accepted(f, validUrl)
    ensures var args := SentArgs(HandleSubmitPost(f, validUrl, storageId));
      && args.Some?
      && args.value.text == f.text && args.value.text != ""
      && (f.location.latitude.Some? ==> args.value.lat == f.location.latitude.value)
      && (f.location.latitude.None? ==> args.value.lat == 0.0)
      && (f.location.longitude.Some? ==> args.value.lng == f.location.longitude.value)
      && (f.location.longitude.None? ==> args.value.lng == 0.0)
      && (f.location.altitude.Some? ==> args.value.altitude == f.location.altitude.value)
      && (f.location.altitude.None? ==> args.value.altitude == 0.0)
      && (args.value.relatedUrl.Some? <==> f.relatedUrl != "")
      && (args.value.relatedUrl.Some? ==> args.value.relatedUrl.value == f.relatedUrl && validUrl(f.relatedUrl))
      && (args.value.tag.Some? <==> f.selectedTag != "")
      && (args.value.tag.Some? ==> args.value.tag.value == f.selectedTag)
      && (args.value.photoId.Some? <==> f.hasFile)
  {
  }

  /** Sending is only possible with a latitude, so an enabled form sends
      the real latitude rather than the default. */
  lemma EnabledFormSendsLatitude(f: Form, validUrl: string -> bool, storageId: string)
    requires SendEnabled(f) && Accepted(f, validUrl)
    ensures SentArgs(HandleSubmitPost(f, validUrl, storageId)).value.lat == f.location.latitude.value
  {
  }

  /** A rejected submission sends nothing, keeps the modal open, and leaves
      everything but the error as it was. */
  lemma RejectionChangesOnlyError(f: Form, validUrl: string -> bool, storageId: string)
    requires !Accepted(f, validUrl)
    ensures var r := HandleSubmitPost(f, validUrl, storageId);
      && r.effects == [] && SentArgs(r).None?
      && r.form.error.Some? && r.form == f.(error := r.form.error)
  {
  }

  /** The text check comes first: empty text is reported even when the URL
      is also bad. */
  lemma TextCheckedBeforeUrl(f: Form, validUrl: string -> bool, storageId: string)
    requires f.text == "" && f.relatedUrl != "" && !validUrl(f.relatedUrl)
    ensures HandleSubmitPost(f, validUrl, storageId).form.error == Some(NoTextError)
  {
  }

  /** `setTag`: choosing the selected tag clears it; any other choice
      replaces it. */
  function SetTag(f: Form, tag: string): (r: Form)
    ensures r == f.(selectedTag := r.selectedTag)
    ensures r.selectedTag == tag || r.selectedTag == ""
    ensures r.selectedTag == "" <==> (tag == f.selectedTag || tag == "")
  {
    if tag == f.selectedTag then f.(selectedTag := "") else f.(selectedTag := tag)
  }

  /** Choosing the same tag twice restores the selection exactly when no
      tag was selected or it was that tag already. */
  lemma SetTagTwice(f: Form, tag: string)
    requires tag != ""
    ensures SetTag(SetTag(f, tag), tag) == f <==> (f.selectedTag == "" || f.selectedTag == tag)
  {
    if f.selectedTag != "" && f.selectedTag != tag {
      assert SetTag(SetTag(f, tag), tag).selectedTag == "";
    }
  }

  /** At most one tag is ever sent, and it is the one last toggled on. */
  lemma SentTagIsSelected(f: Form, tag: string, validUrl: string -> bool, storageId: string)
    requires tag != "" && tag != f.selectedTag
    requires Accepted(f, validUrl)
    ensures SentArgs(HandleSubmitPost(SetTag(f, tag), validUrl, storageId)).value.tag == Some(tag)
  {
  }
}

=== FILE: posts.dfy ===
/** The backend queries that turn vector-search hits into post documents. */
module Posts {
  import opened Options
  import opened Docs

  /** The `posts` table: what `db.get(id)` finds, if anything. */
  type Database = map<PostId, Doc>

  function Lookup(db: Database, id: PostId): Option<Doc>
  {
    if id in db then Some(db[id]) else None
  }

  function Lookups(db: Database, ids: seq<PostId>): (r: seq<Option<Doc>>)
    ensures |r| == |ids|
    ensures forall i :: 0 <= i < |ids| ==> r[i] == Lookup(db, ids[i])
  {
    seq(|ids|, i requires 0 <= i < |ids| => Lookup(db, ids[i]))
  }

  /** `getPostsInternal`: the documents of `ids`, in id order, skipping the
      ids that find nothing. */
  function GetPostsInternal(db: Database, ids: seq<PostId>): (docs: seq<Doc>)
    ensures |docs| <= |ids|
    ensures |docs| == |ids| <==> forall i :: 0 <= i < |ids| ==> ids[i] in db
    ensures |docs| == |ids| ==> forall i :: 0 <= i < |ids| ==> docs[i] == db[ids[i]]
    ensures forall d :: d in docs ==> d in db.Values
  {
    var r := Somes(Lookups(db, ids));
    assert forall d :: d in r ==> d in db.Values by {
      forall d | d in r
        ensures d in db.Values
      {
        var i :| 0 <= i < |r| && r[i] == d;
        SomesFromEntries(Lookups(db, ids), i);
      }
    }
    r
  }

  /** The documents come out in the order of their ids: the i-th document is
      found under the i-th resolving id, and every resolving id is used. */
  lemma GetPostsKeepsOrder(db: Database, ids: seq<PostId>)
    ensures var docs := GetPostsInternal(db, ids);
      var idx := SomeIndices(Lookups(db, ids));
      && |idx| == |docs|
      && (forall i, j :: 0 <= i < j < |idx| ==> idx[i] < idx[j])
      && (forall i :: 0 <= i < |idx| ==> idx[i] < |ids| && ids[idx[i]] in db && docs[i] == db[ids[idx[i]]])
      && (forall k :: 0 <= k < |ids| && ids[k] in db ==> k in idx)
  {
    var lookups := Lookups(db, ids);
    var idx := SomeIndices(lookups);
    forall k | 0 <= k < |ids| && ids[k] in db
      ensures k in idx
    {
      assert lookups[k].Some?;
      SomeIndicesComplete(lookups, k);
    }
  }

  /** No deduplication: an id asked for twice yields its document twice. */
  lemma DuplicateIdsGiveDuplicateDocs(db: Database, id: PostId)
    requires id in db
    ensures GetPostsInternal(db, [id, id]) == [db[id], db[id]]
  {
  }

  /** One vector-search hit. */
  datatype Hit = Hit(id: PostId, score: real)

  /** `{posts, scores}` as returned to the client. */
  datatype SearchResponse = SearchResponse(posts: seq<Doc>, scores: seq<real>)

  function Ids(hits: seq<Hit>): (ids: seq<PostId>)
    ensures |ids| == |hits| && forall i :: 0 <= i < |hits| ==> ids[i] == hits[i].id
  {
    seq(|hits|, i requires 0 <= i < |hits| => hits[i].id)
  }

  /** `searchPosts` as written: one score per hit, but documents only for
      the hits that still resolve. */
  function SearchPosts(db: Database, hits: seq<Hit>): (r: SearchResponse)
    ensures |r.scores| == |hits| && forall i :: 0 <= i < |hits| ==> r.scores[i] == hits[i].score
    ensures |r.posts| <= |r.scores|
    ensures r.posts == GetPostsInternal(db, Ids(hits))
  {
    SearchResponse(GetPostsInternal(db, Ids(hits)), seq(|hits|, i requires 0 <= i < |hits| => hits[i].score))
  }

  /** Some hit found `d` and carried score `s`. */
  ghost predicate OwnScore(db: Database, hits: seq<Hit>, d: Doc, s: real)
  {
    exists k :: 0 <= k < |hits| && hits[k].id in db && db[hits[k].id] == d && hits[k].score == s
  }

  /** Every document is paired with the score of a hit that found it. */
  ghost predicate Aligned(db: Database, hits: seq<Hit>, r: SearchResponse)
  {
    |r.posts| == |r.scores| &&
    forall i :: 0 <= i < |r.posts| ==> OwnScore(db, hits, r.posts[i], r.scores[i])
  }

  /** When every hit resolves, the response as written is aligned. */
  lemma SearchPostsAlignedWhenComplete(db: Database, hits: seq<Hit>)
    requires forall i :: 0 <= i < |hits| ==> hits[i].id in db
    ensures Aligned(db, hits, SearchPosts(db, hits))
  {
    var r := SearchPosts(db, hits);
    forall i | 0 <= i < |r.posts|
      ensures OwnScore(db, hits, r.posts[i], r.scores[i])
    {
      assert db[hits[i].id] == r.posts[i];
    }
  }

  /** A hit that no longer resolves shifts every later document onto the
      score of the hit before it. */
  lemma SearchPostsMisalignsOnMissingDoc(db: Database, hits: seq<Hit>, d: Doc)
    requires db == map[2 := d] && hits == [Hit(1, 0.9), Hit(2, 0.3)]
    ensures SearchPosts(db, hits) == SearchResponse([d], [0.9, 0.3])
    ensures !OwnScore(db, hits, d, 0.9) && OwnScore(db, hits, d, 0.3)
    ensures !Aligned(db, hits, SearchPosts(db, hits))
  {
    assert hits[1].id in db && db[hits[1].id] == d && hits[1].score == 0.3;
    var lookups := Lookups(db, Ids(hits));
    assert lookups == [None, Some(d)];
    assert lookups[..1] == [None];
    assert Somes(lookups) == [d];
  }

  /** The scores of the hits at positions `idx`. */
  function ScoresAt(hits: seq<Hit>, idx: seq<nat>): (scores: seq<real>)
    requires forall i :: 0 <= i < |idx| ==> idx[i] < |hits|
    ensures |scores| == |idx|
    ensures forall i :: 0 <= i < |idx| ==> scores[i] == hits[idx[i]].score
  {
    seq(|idx|, i requires 0 <= i < |idx| => hits[idx[i]].score)
  }

  /** Pairing each document with the score of the hit it was found under
      gives an aligned response. */
  lemma PairedByIndex(db: Database, hits: seq<Hit>, idx: seq<nat>, posts: seq<Doc>)
    requires |idx| == |posts|
    requires forall i :: 0 <= i < |idx| ==>
      idx[i] < |hits| && hits[idx[i]].id in db && db[hits[idx[i]].id] == posts[i]
    ensures Aligned(db, hits, SearchResponse(posts, ScoresAt(hits, idx)))
  {
    var scores := ScoresAt(hits, idx);
    forall i | 0 <= i < |posts|
      ensures OwnScore(db, hits, posts[i], scores[i])
    {
      var k := idx[i];
      assert hits[k].id in db && db[hits[k].id] == posts[i] && hits[k].score == scores[i];
    }
  }

  /** `searchPosts` corrected: a score is kept only together with the
      document of its own hit. */
  function SearchPostsAligned(db: Database, hits: seq<Hit>): (r: SearchResponse)
    ensures Aligned(db, hits, r)
    ensures r.posts == GetPostsInternal(db, Ids(hits))
  {
    var ids := Ids(hits);
    var lookups := Lookups(db, ids);
    var idx := SomeIndices(lookups);
    var posts := Somes(lookups);
    assert forall i :: 0 <= i < |idx| ==>
      idx[i] < |hits| && hits[idx[i]].id in db && db[hits[idx[i]].id] == posts[i] by {
      forall i | 0 <= i < |idx|
        ensures idx[i] < |hits| && hits[idx[i]].id in db && db[hits[idx[i]].id] == posts[i]
      {
        assert lookups[idx[i]] == Some(posts[i]);
        assert lookups[idx[i]] == Lookup(db, ids[idx[i]]);
      }
    }
    PairedByIndex(db, hits, idx, posts);
    SearchResponse(posts, ScoresAt(hits, idx))
  }

  /** The correction changes nothing while every hit resolves. */
  lemma CorrectionAgreesWhenComplete(db: Database, hits: seq<Hit>)
    requires forall i :: 0 <= i < |hits| ==> hits[i].id in db
    ensures SearchPostsAligned(db, hits) == SearchPosts(db, hits)
  {
    var lookups := Lookups(db, Ids(hits));
    var idx := SomeIndices(lookups);
    assert |idx| == |hits|;
    forall i | 0 <= i < |idx|
      ensures idx[i] == i
    {
      IndicesAreIdentity(idx, |hits|, i);
    }
  }

  /** A strictly increasing list of `n` indices below `n` is `0, 1, ...`. */
  lemma {:induction false} IndicesAreIdentity(idx: seq<nat>, n: nat, i: nat)
    requires |idx| == n && i < n
    requires forall a :: 0 <= a < n ==> idx[a] < n
    requires forall a, b :: 0 <= a < b < n ==> idx[a] < idx[b]
    ensures idx[i] == i
  {
    LowerBound(idx, n, i);
    UpperBound(idx, n, i);
  }

  lemma {:induction false} LowerBound(idx: seq<nat>, n: nat, i: nat)
    requires |idx| == n && i < n
    requires forall a, b :: 0 <= a < b < n ==> idx[a] < idx[b]
    ensures idx[i] >= i
    decreases i
  {
    if i > 0 {
      LowerBound(idx, n, i - 1);
    }
  }

  lemma {:induction false} UpperBound(idx: seq<nat>, n: nat, i: nat)
    requires |idx| == n && i < n
    requires forall a :: 0 <= a < n ==> idx[a] < n
    requires forall a, b :: 0 <= a < b < n ==> idx[a] < idx[b]
    ensures idx[i] <= i
    decreases n - i
  {
    if i < n - 1 {
      UpperBound(idx, n, i + 1);
    }
  }
}

=== FILE: search.dfy ===
/** What a submitted search does on the map page: keep the well-scored
    results, cluster them, outline the clusters, and move the camera to the
    best result. */
module MapSearch {
  import opened Options
  import opened Docs
  import Posts
  import PC = PostCluster
  import G = PostClusterGroup
  import Cam = Camera

  /** Results scoring below this end the list. */
  const ScoreThreshold: real := 0.4
  /** Camera range when arriving at the best result. */
  const ArrivalRange: real := 1000.0
  /** Duration of the camera move to the best result, in milliseconds. */
  const ArrivalMS: int := 2000

  /** `res.scores[i] < 0.4`; past the end of `scores` the entry is
      `undefined`, which compares false, so the loop does not stop there. */
  predicate Stops(scores: seq<real>, i: nat)
  {
    i < |scores| && scores[i] < ScoreThreshold
  }

  /** The loop from index `i` on: where it breaks or runs out of posts. */
  function KeptCount(posts: seq<Doc>, scores: seq<real>, i: nat): (n: nat)
    requires i <= |posts|
    ensures i <= n <= |posts|
    ensures forall j :: i <= j < n ==> !Stops(scores, j)
    ensures n < |posts| ==> Stops(scores, n)
    decreases |posts| - i
  {
    if i == |posts| || Stops(scores, i) then i else KeptCount(posts, scores, i + 1)
  }

  /** The posts the result loop keeps: the longest prefix on which it does
      not stop. */
  function KeepPrefix(posts: seq<Doc>, scores: seq<real>): (kept: seq<Doc>)
    ensures |kept| <= |posts| && kept == posts[..|kept|]
    ensures forall j :: 0 <= j < |kept| ==> !Stops(scores, j)
    ensures |kept| < |posts| ==> Stops(scores, |kept|)
  {
    posts[..KeptCount(posts, scores, 0)]
  }

  /** A result after a low score is never kept, however high its own. */
  lemma NothingKeptAfterLowScore(posts: seq<Doc>, scores: seq<real>, j: nat)
    requires j < |scores| && scores[j] < ScoreThreshold
    ensures |KeepPrefix(posts, scores)| <= j
  {
    var kept := KeepPrefix(posts, scores);
    assert j < |kept| ==> !Stops(scores, j);
  }

  /** With one score per post, the kept posts are exactly those before the
      first score under the threshold, each scoring at least the threshold. */
  lemma KeepPrefixOfPairedScores(posts: seq<Doc>, scores: seq<real>)
    requires |posts| == |scores|
    ensures var kept := KeepPrefix(posts, scores);
      && (forall j :: 0 <= j < |kept| ==> scores[j] >= ScoreThreshold)
      && (|kept| == |posts| || scores[|kept|] < ScoreThreshold)
  {
    var kept := KeepPrefix(posts, scores);
    forall j | 0 <= j < |kept|
      ensures scores[j] >= ScoreThreshold
    {
      assert !Stops(scores, j);
    }
  }

  /** Everything `handleSubmit` produces. */
  datatype SearchView = SearchView(
    released: seq<PC.Removal>,
    kept: seq<Doc>,
    clusters: G.Group,
    polygons: seq<seq<PC.Vertex>>,
    cameraMove: Option<Cam.Interpolation>,
    arrivalSelection: Option<Doc>,
    flyThroughPosts: seq<Doc>)

  /** `handleSubmit` at time `now`, given the previous group (if any), the
      server's response and the live camera. */
  function HandleSubmit(
    dist: Distance, hull: PC.Hull, previous: Option<G.Group>,
    res: Posts.SearchResponse, camera: Cam.CameraState, now: int): (v: SearchView)
    ensures v.kept == KeepPrefix(res.posts, res.scores) && v.flyThroughPosts == v.kept
    ensures previous.None? ==> v.released == []
    ensures previous.Some? ==> v.released == G.RemoveMapResources(previous.value).removals
    ensures var pass := G.GeneratePolygons(G.ClusterAll(dist, v.kept), hull);
      v.clusters == pass.clusters && v.polygons == pass.polygons
    ensures G.Members(v.clusters) == multiset(v.kept)
    ensures |v.polygons| <= |v.clusters| <= |v.kept|
    ensures v.cameraMove.Some? <==> |v.kept| > 0
    ensures v.cameraMove.Some? ==>
      && v.cameraMove.value
        == Cam.Begin(camera, Cam.CameraState(v.kept[0].lat, v.kept[0].lng, ArrivalRange), ArrivalMS, now, true)
      && v.cameraMove.value.running
      && v.arrivalSelection == Some(v.kept[0])
    ensures v.cameraMove.None? ==> v.arrivalSelection.None?
  {
    var released := if previous.Some? then G.RemoveMapResources(previous.value).removals else [];
    var kept := KeepPrefix(res.posts, res.scores);
    var built := G.ClusterAll(dist, kept);
    var pass := G.GeneratePolygons(built, hull);
    var clusters := pass.clusters;
    assert G.Members(clusters) == G.Members(built) by {
      MembersOfSamePosts(built, clusters);
    }
    if |clusters| > 0 then
      G.ClusterAllFirst(dist, kept);
      var first := clusters[0].posts[0];
      var target := Cam.CameraState(first.lat, first.lng, ArrivalRange);
      SearchView(released, kept, clusters, pass.polygons,
        Some(Cam.Begin(camera, target, ArrivalMS, now, true)), Some(first), kept)
    else
      assert |kept| == 0 by {
        assert |multiset(kept)| == 0;
      }
      SearchView(released, kept, clusters, pass.polygons, None, None, kept)
  }

  /** Rebuilding polygons leaves every cluster's members in place. */
  lemma {:induction false} MembersOfSamePosts(g: G.Group, h: G.Group)
    requires |g| == |h| && forall j :: 0 <= j < |g| ==> h[j].posts == g[j].posts
    ensures G.Members(h) == G.Members(g)
    decreases |g|
  {
    if |g| > 0 {
      MembersOfSamePosts(g[..|g| - 1], h[..|h| - 1]);
    }
  }

  /** Over an aligned response, every kept post carries the score of its
      own hit, and that score passes. */
  lemma AlignedKeepsOwnScores(db: Posts.Database, hits: seq<Posts.Hit>, res: Posts.SearchResponse)
    requires Posts.Aligned(db, hits, res)
    ensures var kept := KeepPrefix(res.posts, res.scores);
      forall i :: 0 <= i < |kept| ==>
        res.scores[i] >= ScoreThreshold && Posts.OwnScore(db, hits, kept[i], res.scores[i])
  {
    var kept := KeepPrefix(res.posts, res.scores);
    forall i | 0 <= i < |kept|
      ensures res.scores[i] >= ScoreThreshold && Posts.OwnScore(db, hits, kept[i], res.scores[i])
    {
      assert kept[i] == res.posts[i];
      assert !Stops(res.scores, i);
    }
  }

  /** With the corrected server response, every post the search keeps
      carries the score of its own hit, and that score passes. */
  lemma CorrectedSearchKeepsOwnScores(db: Posts.Database, hits: seq<Posts.Hit>)
    ensures var res := Posts.SearchPostsAligned(db, hits);
      var kept := KeepPrefix(res.posts, res.scores);
      forall i :: 0 <= i < |kept| ==>
        res.scores[i] >= ScoreThreshold && Posts.OwnScore(db, hits, kept[i], res.scores[i])
  {
    AlignedKeepsOwnScores(db, hits, Posts.SearchPostsAligned(db, hits));
  }

  /** The loop keeps the one post of the misaligned response. */
  lemma KeepsShiftedPost(d: Doc)
    ensures KeepPrefix([d], [0.9, 0.3]) == [d]
  {
    assert KeptCount([d], [0.9, 0.3], 1) == 1;
  }

  /** As written, a missing document lets a post through on another hit's
      score: here the only post scored 0.3 yet is kept and flown to. */
  lemma MissingDocKeepsLowScoredPost(
    dist: Distance, hull: PC.Hull, d: Doc, camera: Cam.CameraState, now: int)
    ensures var db := map[2 := d];
      var hits := [Posts.Hit(1, 0.9), Posts.Hit(2, 0.3)];
      var v := HandleSubmit(dist, hull, None, Posts.SearchPosts(db, hits), camera, now);
      v.kept == [d] && v.arrivalSelection == Some(d) && !Posts.OwnScore(db, hits, d, 0.9)
  {
    var db := map[2 := d];
    var hits := [Posts.Hit(1, 0.9), Posts.Hit(2, 0.3)];
    Posts.SearchPostsMisalignsOnMissingDoc(db, hits, d);
    KeepsShiftedPost(d);
  }
}
